=== FILE: README.md ===
# 42 header updater — a Dafny model

`norminette_headers_replace/cli.py` rewrites or inserts 42-style file headers. A
42 header is a comment block with `File:`, `By:`, `Created:` and `Updated:`
lines. The tool is meant to give each file a same-day `Created`/`Updated` pair,
and consecutive files get "realistic" gaps between them. This project models the
pure core of that script and proves what it does:

- **Stamp** (`stamp.dfy`). `format_42` (`%Y/%m/%d %H:%M:%S`) on a calendar date
  and time, and the stamp pattern the date regexes accept. A parser for
  canonical stamps shows that formatting loses nothing.
- **Width** (`width.dfy`). `adjust_width_preserving_tail`: the run of spaces
  before the last `*/` grows or shrinks so the rewritten line keeps the old
  width.
- **Fields** (`fields.dfy`). The three regexes `RE_BY`, `RE_CREATED` and
  `RE_UPDATED`, written out as matchers over one line, plus the two line
  rewriters `update_by_line` and `update_dt_line`.
  - The date matchers are proved equal to a declarative statement of the
    pattern, including the lazy `.*?`, the greedy whitespace runs and `$`
    before a final newline.
  - `RE_BY` has four capture groups because `(<[^>]*>)` is nested inside the
    third. `left, _old, tail = m.groups()` therefore raises on every match, so
    `update_by_line` is modelled as a `Result` that fails exactly when the line
    holds a word-boundary `By:`.
- **Rewrite** (`rewrite.dfy`). `looks_like_42_header` and the per-line loop of
  `process_file_update_existing`, from the lines `readlines` returns to the new
  lines, the `changed` flag and the status (`empty`, `no-42-header`, `ok`,
  `unchanged`).
- **Timeline** (`timeline.dfy`). `plan_timeline` on integer seconds after
  midnight, where the end of the day is 86399. The random gaps and work times
  are inputs that lie within their bounds.
- **Header** (`header.dfy`). `comment_style_for_ext`, `os.path.basename`,
  `os.path.splitext`, `build_header_block`, and the splice done by
  `insert_header_if_missing` once the file has been read and split into lines.
- **Text** and **Wrappers**. Shared string helpers (occurrence, `in`,
  `str.join`, `rfind`, ASCII character classes) and `Option`/`Result`.

Lines are modelled as the reading functions return them: a newline may appear
only as the last character. Under that assumption `.` never meets a newline
before the end of the line, so each regex reduces to the matchers written here.

Three behaviours of the code stand out, and the model follows the statements
in each:

- The header comment (`cli.py:2`) and the argument parser's description
  (`cli.py:329`) speak of same-day stamps. The docstring of `plan_timeline`
  says "All stamps are today" (`cli.py:274`), and the last step is commented
  "Clamp to today" (`cli.py:307`). The statements clamp `created` only from
  below and `updated` only from above (`cli.py:308`). A run that does not fit
  starts at 00:00:01; it still ends inside the day when its drawn gaps do, but
  once the gaps reach the end of the day the last `created` leaves it (first
  finding).
- `update_by_line` (`cli.py:65-69`) unpacks the four groups of `RE_BY` into three
  names, which raises `ValueError` on every matching line. Neither the per-line
  loop (`cli.py:247-248`) nor the per-file loop of `main` (`cli.py:385-387`)
  catches it.
- The help text of `--seed` reads "Seed for reproducible timing plan"
  (`cli.py:347`). The code seeds the global random module (`cli.py:369`), but
  `plan_timeline` draws from its own `random.Random()` (`cli.py:285`).

## Model

| member | source | states |
|---|---|---|
| Stamp.Format42 | norminette_headers_replace/cli.py:21-23 | the formatted stamp is 19 characters long, has a single space between date and time, and is accepted by the regexes' stamp pattern |
| Stamp.ParseFormat | norminette_headers_replace/cli.py:21-23 | reading a formatted stamp back gives the original date and time |
| Stamp.FormatParse | norminette_headers_replace/cli.py:21-23 | every canonical stamp is the format of the date it denotes, so formatting is a bijection onto canonical stamps |
| Stamp.StampPrefixUnique | norminette_headers_replace/cli.py:16 | the greedy `\s+` inside the stamp pattern lets at most one stamp start at a given place |
| Stamp.Format42NoNewline | norminette_headers_replace/cli.py:21-23 | a formatted stamp holds no newline |
| Width.FlexEnd | norminette_headers_replace/cli.py:38-41 | the flexible run must end at the last occurrence of `*/`, or at the end of the line when there is none |
| Width.SpaceRunStart | norminette_headers_replace/cli.py:45-51 | the backwards scan stops at the start of the maximal run of spaces that ends right before the end index |
| Width.AdjustWidth | norminette_headers_replace/cli.py:30-63 | the new line comes back unchanged when the lengths match, when there is no run, or when the line grew by at least the run's length (the strict `run_len > diff`); otherwise the result has the old length, the same text before the run and from the `*/` on, and only spaces in between |
| Width.AdjustWidthIdempotent | norminette_headers_replace/cli.py:30-63 | adjusting the adjusted line against the same old line changes nothing |
| Fields.MatchEnd | norminette_headers_replace/cli.py:15-17 | a greedy `.*` followed by `$` stops at the end of the line or right before its final newline, and covers no newline |
| Fields.FirstByAt | norminette_headers_replace/cli.py:15 | the lazy `.*?\bBy:` finds the first word-boundary `By:`, and there is none before it |
| Fields.AngleGroup | norminette_headers_replace/cli.py:15 | the optional group `(<[^>]*>)` takes part exactly when a `<` stands at the position and a `>` follows it, and is then the text from `<` through the first `>` |
| Fields.ByGroups | norminette_headers_replace/cli.py:15 | `RE_BY` matches exactly when a word-boundary `By:` occurs; a match has four groups: the left part through the label and its whitespace, an empty lazy value, the rest of the line before a final newline, and the angle group |
| Fields.ByGroupsSplitLine | norminette_headers_replace/cli.py:15 | groups one and three put back together give the line up to its final newline, and the value group is always empty |
| Fields.UpdateByLine | norminette_headers_replace/cli.py:65-69 | a line without a `By:` match is returned unchanged; on every match the three-name unpacking of four groups fails |
| Fields.MatchDateAt | norminette_headers_replace/cli.py:16-17 | a match found with the key at `p` is a match of the date pattern at `p`, and its tail is the longest one |
| Fields.FirstDateMatch | norminette_headers_replace/cli.py:16-17 | the lazy `.*?` picks the leftmost key position that leads to a match; no earlier position matches, and none at all when nothing is found |
| Fields.SplitDate | norminette_headers_replace/cli.py:16-17 | `re.match` fails exactly when no key position leads to a match, and otherwise reports the leftmost match with the longest tail |
| Fields.ReMatchUnique | norminette_headers_replace/cli.py:16-17 | the match the regex reports is unique, so the three groups are well defined |
| Fields.MaybeAdjust | norminette_headers_replace/cli.py:80 | without width preservation the new line is returned as built; with it, the result has the old line's width whenever the run of spaces before the comment ender can absorb the change, and is the new line otherwise; a single line stays a single line |
| Fields.UpdateDateLine | norminette_headers_replace/cli.py:74-80 | a line with no match is returned unchanged; on the match the result is group 1, the formatted new stamp and group 3, with the width adjusted when asked; the result is one line |
| Fields.DateRewriteKeepsWidth | norminette_headers_replace/cli.py:74-80 | with width preservation, a matched line whose rebuilt form can flex keeps exactly the width of the old line |
| Fields.RewrittenMatch | norminette_headers_replace/cli.py:16-17 | on a rewritten line the regex finds the same key, the new 19-character stamp, and a tail that runs to the end of the line |
| Fields.DateRewriteOverwrites | norminette_headers_replace/cli.py:74-80 | without width preservation, rewriting an already rewritten line with a second date gives the line rewritten with the second date alone |
| Fields.DateRewriteIdempotent | norminette_headers_replace/cli.py:74-80 | without width preservation, rewriting an already rewritten line again with the same date changes nothing |
| Fields.DateRewriteReadsBack | norminette_headers_replace/cli.py:74-80 | without width preservation, the regex still matches the rewritten line, and the stamp it reads there parses to the new date |
| Fields.DateRewriteNewline | norminette_headers_replace/cli.py:74-80 | without width preservation, a line ending in a newline keeps it exactly when all that follows the old stamp is whitespace, `by`, whitespace; otherwise the `.*` of group 3 stops before the newline and the newline is lost |
| Rewrite.LooksLike42Header | norminette_headers_replace/cli.py:25-28 | detection holds exactly when `By:`, `Created:` and `Updated:` each occur in some line of the window |
| Rewrite.JoinedWindow | norminette_headers_replace/cli.py:27-28 | a newline-free label occurs in the newline-joined window exactly when it occurs in one of its lines |
| Rewrite.DetectionReadsWindowOnly | norminette_headers_replace/cli.py:25-28 | two files that agree on their first 20 lines (their `Window`, `lines[:HEADER_SCAN_LINES]`) are judged alike |
| Rewrite.RewriteLine | norminette_headers_replace/cli.py:245-252 | one loop step fails exactly when the line holds a word-boundary `By:`, with the unpacking error, and otherwise yields one line |
| Rewrite.RewriteLineComposes | norminette_headers_replace/cli.py:246-251 | a successful step is `update_dt_line` with `RE_CREATED` and the created date, then with `RE_UPDATED` and the updated date: the `By:` step keeps a line it does not fail on, and the `in` guards skip only rewrites that change nothing |
| Rewrite.RewriteLineWritesCreated | norminette_headers_replace/cli.py:246-251 | without width preservation, a line with a `Created:` match and neither `By:` nor `Updated:` comes out of the step with a `Created:` field whose stamp reads back as the new created date |
| Rewrite.RewriteLineWritesUpdated | norminette_headers_replace/cli.py:246-251 | without width preservation, a line with an `Updated:` match and neither `By:` nor `Created:` comes out of the step with an `Updated:` field whose stamp reads back as the new updated date |
| Rewrite.RewriteLineNoLabels | norminette_headers_replace/cli.py:247-252 | a line holding none of the three labels passes through the step unchanged |
| Rewrite.RewriteLineKeepsUnmatched | norminette_headers_replace/cli.py:245-252 | a line on which neither date regex matches is not changed by a step that succeeds |
| Rewrite.RewriteLines | norminette_headers_replace/cli.py:244-255 | the loop fails exactly when some step fails; otherwise line `i` is the step's result on line `i`, and the flag is set exactly when some line differs |
| Rewrite.PassWindow | norminette_headers_replace/cli.py:241-255 | only the first `min(20, len)` lines (the `Window`) are rewritten, the lines after them are kept, and `changed` holds exactly when the new lines differ from the old |
| Rewrite.UpdateWith | norminette_headers_replace/cli.py:235-264 | no lines gives `empty`; no detected header gives `no-42-header` with the lines kept; otherwise the pass fails exactly when a window step fails, and the status is `ok` exactly when something changed, else `unchanged` |
| Rewrite.UpdateExistingFails | norminette_headers_replace/cli.py:235-255 | the pass fails exactly when a header is detected and a window line holds a word-boundary `By:` |
| Rewrite.UpdateExistingLineShaped | norminette_headers_replace/cli.py:241-255 | every line the pass writes is still a single line |
| Rewrite.UpdateKeepsLabelFreeLines | norminette_headers_replace/cli.py:241-255 | a line without any of the three labels is written back unchanged |
| Timeline.PrefixSumBounds | norminette_headers_replace/cli.py:286-289 | the sum of `i` gaps drawn from `[lo, hi]` lies between `i*lo` and `i*hi` |
| Timeline.Base | norminette_headers_replace/cli.py:293-296 | the base is `min(now, latest_base)` while the run fits in the day, and one second past midnight otherwise; it is never before midnight |
| Timeline.Walk | norminette_headers_replace/cli.py:298-305 | the loop creates file `k` at the start plus the sum of the first `k` gaps, and caps `updated` at the end of the day |
| Timeline.PlanTimeline | norminette_headers_replace/cli.py:279-308 | there is one pair per file; pair `i` is `(max(0, base + gaps before i), min(base + gaps before i + work i, end of day))` |
| Timeline.TimelineShape | norminette_headers_replace/cli.py:279-308 | no files gives no pairs; the first file starts at the base; consecutive `created` differ by exactly the drawn gap, so the clamp never moves a `created`; `updated = min(created + work, end of day)` |
| Timeline.TimelineFits | norminette_headers_replace/cli.py:289-308 | when the gaps and the last work time fit in the day, the first file starts at `min(now, latest_base) <= now` and every pair is ordered inside the day |
| Timeline.TimelineDurations | norminette_headers_replace/cli.py:300-303 | when the run fits, every `updated - created` lies within the work bounds, as the docstring promises |
| Timeline.TimelineOverflow | norminette_headers_replace/cli.py:293-308 | when the run does not fit and the drawn gaps reach the end of the day, the run starts at 00:00:01 and the last `created` lies past the end of the day, after its own `updated` (which is 23:59:59 when the last work time is at least -1) |
| Timeline.TimelineOverflowExample | norminette_headers_replace/cli.py:307-308 | two files from midnight with a full day's gap give the pairs (1, 1) and (86400, 86399) |
| Timeline.PlanTimelineWithinDay | norminette_headers_replace/cli.py:307-308 | the corrected clamp keeps both stamps of every pair inside the day, and keeps `created <= updated` for non-negative work times |
| Timeline.WithinDayAgrees | norminette_headers_replace/cli.py:307-308 | whenever the run fits, the corrected planner gives exactly the original plan |
| Header.Lower | norminette_headers_replace/cli.py:99 | the lower-cased text has the same length and no upper-case ASCII letter; every other character stays where it was, and an upper-case letter becomes the letter 32 code points on |
| Header.LowerIdempotent | norminette_headers_replace/cli.py:99 | lower-casing twice is lower-casing once |
| Header.CommentStyleForExt | norminette_headers_replace/cli.py:98-105 | the style is hash exactly for `.py`, `.sh`, `.rb` and `.lua` in any case, and C for everything else |
| Header.CommentStyleIgnoresCase | norminette_headers_replace/cli.py:98-99 | lower-casing the extension first does not change the style |
| Header.Basename | norminette_headers_replace/cli.py:141 | the base name holds no `/`, ends the path, and is preceded by a `/` whenever it is shorter than the path |
| Header.SplitExt | norminette_headers_replace/cli.py:190 | root plus extension is the path; the extension is a dot followed by neither dots nor slashes, and is non-empty exactly when the last component has a dot with a non-dot before it |
| Header.LJust | norminette_headers_replace/cli.py:136 | `ljust` pads with spaces up to the width and never truncates |
| Header.BorderLayout | norminette_headers_replace/cli.py:129-151 | a C ruler is `/* `, stars, ` */`; a C blank line is `/* `, spaces, ` */`; a hash ruler is `#` from end to end |
| Header.Framed | norminette_headers_replace/cli.py:135-155 | a C content line is `6 + max(width - 6, len(text))` wide and a hash one `max(width, 2 + len(text))`; it holds no newline when the text holds none |
| Header.FramedLayout | norminette_headers_replace/cli.py:135-155 | a content line is the opener and the text, then only spaces, then ` */` in C style |
| Header.BlockDetected | norminette_headers_replace/cli.py:124-165 | any block laid out by `Block` (C style: ruler, blank, four fields, blank, ruler, empty; hash style: ruler, four fields, ruler, empty) whose second, third and fourth field texts start with `By:`, `Created:` and `Updated:` is recognised as a 42 header |
| Header.BuildHeaderBlock | norminette_headers_replace/cli.py:107-165 | the field lines frame `File: basename`, the By text, and `Created:`/`Updated:` with the formatted stamps and ` by name` |
| Header.BuildHeaderBlockDetected | norminette_headers_replace/cli.py:107-165 | every built block is recognised as a 42 header |
| Header.BuildHeaderBlockWidth | norminette_headers_replace/cli.py:118-165 | with room for every field text, each line of the block but the final empty one is exactly `width` wide |
| Header.Terminate | norminette_headers_replace/cli.py:199 | the result ends in a newline, starts with the line, and is the line itself exactly when the line already ends in a newline; otherwise it is one character longer |
| Header.HeaderText | norminette_headers_replace/cli.py:199 | the header text is empty exactly for an empty block, and otherwise ends with a newline |
| Header.HeaderTextJoin | norminette_headers_replace/cli.py:199 | for newline-free lines the header text is the lines joined by newlines, plus a final newline |
| Header.TerminatedLinesConcat | norminette_headers_replace/cli.py:199 | the header text is the concatenation of the newline-terminated block lines |
| Header.NewBlock | norminette_headers_replace/cli.py:190-198 | the block built for a path has nine lines in C style and seven in hash style, chosen by the path's extension, and opens with that style's ruler at the default width |
| Header.NewBlockLayout | norminette_headers_replace/cli.py:190-198 | the new block frames `File:` and the path's base name in its first field line, the By text (`ByText`: `By: ` and the name, then ` <email>` exactly when an e-mail is given and non-empty) in the next, and ends with the empty line |
| Header.Splice | norminette_headers_replace/cli.py:206 | the header text sits right after the kept lines, and cutting it out gives back the original content exactly |
| Header.InsertHeader | norminette_headers_replace/cli.py:185-206 | nothing is inserted exactly when the first 20 lines already look like a header; otherwise the content is the splice of the new block's text |
| Header.InsertKeepsShebang | norminette_headers_replace/cli.py:201-206 | a shebang stays at the very top; without one the file starts with the header (`InsertIndex` is 1 exactly when the first line starts with `#!`, else 0) |
| Header.InsertTwice | norminette_headers_replace/cli.py:185-206 | the new lines join up to the new content, and running the insertion again on them inserts nothing |
| Header.RerunAfterInsertFails | norminette_headers_replace/cli.py:185-206 | after a header is inserted, the update pass on the new file fails on the header's own `By:` line, whatever the new values |
| Header.ShebangRunsIntoHeader | norminette_headers_replace/cli.py:201-206 | for a file that is one shebang line without a newline, the header text is glued to the shebang line |
| Header.SpliceOwnLine | norminette_headers_replace/cli.py:201-206 | the corrected splice starts the header at the beginning of a line, and cutting it out gives the original content with at most a newline added after the shebang |
| Header.InsertHeaderOwnLine | norminette_headers_replace/cli.py:185-206 | the corrected insertion detects as before and starts the header on a line of its own |
| Header.OwnLineAgrees | norminette_headers_replace/cli.py:201-206 | the correction changes nothing unless the shebang line lacks its newline |
| Header.InsertedLinesConcat | norminette_headers_replace/cli.py:206 | the new file's lines join up to the spliced content |
| Header.InsertedLinesParts | norminette_headers_replace/cli.py:206 | the new file's lines are the lines before the insertion index, the newline-terminated block lines, and the remaining lines, in that order |
| Header.InsertedLineAt | norminette_headers_replace/cli.py:199-206 | block line `i` becomes line `InsertIndex + i` of the new file, ended by a newline |

## Left out

- File I/O: `open`, `read`, `readlines` and `write`, the `read-fail` and `write-fail` statuses, and the dry-run switch. These are plumbing. The model takes lines in and hands lines out.
- `collect_files`, `os.walk`, `os.listdir` and ordering by modification time: filesystem calls.
- `infer_default_name`: a subprocess call to git.
- `main`, argparse and printing. These are command-line plumbing. As written, `args.add-missing` is parsed as a subtraction, so the insertion path can never be reached from the command line. Worse, on the first file whose status is `no-42-header`, `args.add` at `cli.py:396` raises `AttributeError`, which ends the run before the remaining files and the final summary line.
- Randomness: `gaps` and `works` are inputs drawn within their bounds. The `--seed` option calls `random.seed`, but `plan_timeline` draws from its own `random.Random()`, so the option has no effect.
- `datetime`: `now` has its microseconds dropped, because stamps print whole seconds. Time zones and the calendar date are left out because all stamps fall on one day. `format_42` is modelled for years 1000 to 9999 only.
- Python's `timedelta` range limits, and `randint` raising when the minimum exceeds the maximum: inputs are assumed drawn.
- Unicode behaviour of `\s`, `\d`, `\b` and `str.lower`: the model covers ASCII characters only. On them `\s` is space, `\t`, `\n`, `\v`, `\f`, `\r` and the separators `\x1c` to `\x1f`, as Python's `str` patterns read it.
- `str.splitlines` and `readlines` themselves: lines are inputs in which a newline may appear only as the last character. Separators other than `\n` are not modelled.
- Rewrite.UpdateExisting: has no contract of its own. `UpdateWith` states the pass for any step, and the Rewrite and Header lemmas state it for the tool's step.
- Timeline.TimelineShape: assumes a non-negative minimum gap. argparse accepts negative gaps, and with them the clamp can move a `created`.
- Timeline.TimelineFits: assumes non-negative minimum gaps and work times. argparse accepts negative values, and with them `created <= updated` can fail.
- Header.InsertTwice: reads the new file back as `InsertedLines`. That is what splitting the new content gives when the shebang line ends with a newline; line splitting itself is not modelled.
- Header.RerunAfterInsertFails: requires the name, the e-mail and the base name to hold no newline, so that every block line is a single line. Like `InsertTwice`, it reads the new file back as `InsertedLines`. That is what `readlines` gives only when there is no shebang line or it ends with a newline. After a shebang line without one, the header is glued to it (`ShebangRunsIntoHeader`), and the pass on that file is not modelled.
- Timeline.TimelineDurations: assumes non-negative minimum gaps and work times, as `TimelineFits` does. argparse accepts negative values, and with them a clamp can move a stamp, so `updated - created` can leave the work bounds.
- Fields.DateRewriteOverwrites, Fields.DateRewriteIdempotent, Fields.DateRewriteReadsBack, Fields.DateRewriteNewline: stated without width preservation. With it, `Fields.MaybeAdjust` and `Fields.DateRewriteKeepsWidth` state the width the rewritten line keeps, and `Width.AdjustWidth` where the spaces go, but these four round trips are not proved through the adjustment.
- Header.BuildHeaderBlockWidth: states exact widths only when every field text fits. `Framed` gives the longer widths of lines whose text does not fit.

## Findings

| source | as written | input that shows it | evidently intended | confidence | as-written member | corrected member |
|---|---|---|---|---|---|---|
| norminette_headers_replace/cli.py:307-308 | the "clamp to today" step bounds `created` only from below and `updated` only from above | two files, `now` = 00:00:00, gaps `[86399]`, works `[0, 1]`: the second pair is created at 86400 (the next day) and updated at 86399 | every stamp inside the day, as the docstring says ("All stamps are today"), with `created <= updated` | not executed | Timeline.TimelineOverflowExample | Timeline.PlanTimelineWithinDay |
| norminette_headers_replace/cli.py:201-206 | a shebang first line is kept as it is and the header text is put straight after it | a file whose whole content is `#!/bin/sh` with no final newline: the result starts `#!/bin/sh/* ***…` in C style and `#!/bin/sh###…` in hash style | the header starts on its own line after the shebang | not executed | Header.ShebangRunsIntoHeader | Header.InsertHeaderOwnLine |

Neither corrected member feeds anything else. No other member consumes the plan. The insertion lemmas (`InsertTwice`, `RerunAfterInsertFails`) are stated for the code as written. `OwnLineAgrees` shows that they carry over to the corrected insertion whenever the shebang line ends with a newline.

=== FILE: fields.dfy ===
/** The three field regexes of the tool and the two line rewriters built on them:
      RE_BY      = (.*?\bBy:\s*)([^<\n]*?)(\s*(<[^>]*>)?.*)$
      RE_CREATED = (.*?\bCreated:\s*)(STAMP)(\s+by\s+.*)$
      RE_UPDATED = (.*?\bUpdated:\s*)(STAMP)(\s+by\s+.*)$
    Each is modelled by a hand-written matcher for lines as `readlines` yields
    them (a newline only as the last character), where `.` and `.*?` never
    meet a newline before the end.  The date matchers are proved against a
    declarative statement of what the pattern accepts. */
module Fields {
  import opened Wrappers
  import opened Text
  import opened Stamp
  import Width

  const ByLabel: string := "By:"
  const CreatedLabel: string := "Created:"
  const UpdatedLabel: string := "Updated:"

  /** The labels of the two date fields. */
  predicate DateLabel(key: string) {
    key == CreatedLabel || key == UpdatedLabel
  }

  /** `\b` right before index `p`, where a label starting with a word character begins. */
  predicate WordBoundaryBefore(s: string, p: int) {
    p == 0 || (0 < p <= |s| && !IsWordChar(s[p - 1]))
  }

  /** `$`: the end of the line, or the position of a final newline. */
  predicate DollarAt(line: string, t: int) {
    t == |line| || (0 <= t == |line| - 1 && line[t] == '\n')
  }

  /** Where a greedy `.*` that starts at `x` stops and `$` then holds. */
  function MatchEnd(line: string, x: nat): (e: nat)
    requires x <= |line|
    requires LineShaped(line)
    ensures x <= e && DollarAt(line, e)
    ensures NoNewline(line[x..e])
  {
    if x < |line| && line[|line| - 1] == '\n' then |line| - 1 else |line|
  }

  // ---------------------------------------------------------------------------
  // RE_BY and update_by_line
  // ---------------------------------------------------------------------------

  /** `\bBy:` at `p`: the only part of RE_BY that can fail on a newline-free line. */
  predicate ByMatchAt(line: string, p: int) {
    OccursAt(line, ByLabel, p) && WordBoundaryBefore(line, p)
  }

  /** The first `p' >= p` where `\bBy:` occurs. */
  function FirstByAt(line: string, p: nat): (r: Option<nat>)
    ensures r.Some? ==> p <= r.value && ByMatchAt(line, r.value)
    ensures r.Some? ==> forall q :: p <= q < r.value ==> !ByMatchAt(line, q)
    ensures r.None? ==> forall q :: p <= q ==> !ByMatchAt(line, q)
    decreases |line| - p
  {
    if p + |ByLabel| > |line| then None
    else if ByMatchAt(line, p) then Some(p)
    else FirstByAt(line, p + 1)
  }

  /** The first `>` at or after `i`. */
  function FirstCloseAngle(s: string, i: nat): (r: Option<nat>)
    ensures r.Some? ==> i <= r.value < |s| && s[r.value] == '>'
    ensures r.Some? ==> forall k :: i <= k < r.value ==> s[k] != '>'
    ensures r.None? ==> forall k :: i <= k < |s| ==> s[k] != '>'
    decreases |s| - i
  {
    if i >= |s| then None
    else if s[i] == '>' then Some(i)
    else FirstCloseAngle(s, i + 1)
  }

  /** Group 4 of RE_BY, `(<[^>]*>)?`, tried at `l`: the text from `<` through the
      first `>`, or nothing. */
  function AngleGroup(line: string, l: nat): (r: Option<string>)
    requires l <= |line|
    ensures r.Some? ==> |r.value| >= 2 && r.value[0] == '<' && r.value[|r.value| - 1] == '>'
    ensures r.Some? ==> '>' !in r.value[..|r.value| - 1]
    ensures r.Some? ==> OccursAt(line, r.value, l)
    ensures r.None? <==> !(l < |line| && line[l] == '<' && '>' in line[l + 1..])
  {
    if l < |line| && line[l] == '<' then
      match FirstCloseAngle(line, l + 1)
      case None =>
        var tail := line[l + 1..];
        assert forall k :: 0 <= k < |tail| ==> tail[k] == line[l + 1 + k];
        None
      case Some(g) =>
        var v := line[l..g + 1];
        assert forall k :: 0 <= k < |v| - 1 ==> v[k] == line[l + k];
        Some(v)
    else None
  }

  /** The capture groups `m.groups()` of `RE_BY.match(line)`, `None` for a group that
      did not take part, or `None` overall when the regex does not match. */
  function ByGroups(line: string): (r: Option<seq<Option<string>>>)
    requires LineShaped(line)
    ensures r.None? <==> forall p :: !ByMatchAt(line, p)
    ensures r.Some? ==> |r.value| == 4
    ensures r.Some? ==>
      var p := FirstByAt(line, 0).value;
      var l := WsEnd(line, p + |ByLabel|);
      && r.value[0] == Some(line[..l])
      && r.value[1] == Some("")
      && r.value[2] == Some(line[l..MatchEnd(line, l)])
      && r.value[3] == AngleGroup(line, l)
  {
    match FirstByAt(line, 0)
    case None => None
    case Some(p) =>
      // `.*?` tries the first `\bBy:`; greedy `\s*`; the lazy value group takes
      // nothing because the rest of the pattern then always matches.
      var l := WsEnd(line, p + |ByLabel|);
      Some([Some(line[..l]), Some(""), Some(line[l..MatchEnd(line, l)]), AngleGroup(line, l)])
  }

  /** The error `update_by_line` raises: `left, _old, tail = m.groups()` unpacks
      a tuple of `got` values into `expected` names. */
  datatype RewriteError = UnpackError(got: nat, expected: nat)

  /** `update_by_line(line, name, email, preserve_width)`. */
  function UpdateByLine(line: string, name: string, email: Option<string>, preserveWidth: bool)
    : (r: Result<string, RewriteError>)
    requires LineShaped(line)
    ensures r.Failure? <==> exists p :: ByMatchAt(line, p)
    ensures r.Failure? ==> r.error == UnpackError(4, 3)
    ensures r.Success? ==> r.value == line
  {
    match ByGroups(line)
    case None => Success(line)
    case Some(groups) => Failure(UnpackError(|groups|, 3))
  }

  /** Reading the groups of a match: the lazy value group is always empty, group 1
      runs through a word-boundary `By:` and its whitespace, and groups 1 and 3
      together give back the line up to a final newline. */
  lemma ByGroupsSplitLine(line: string)
    requires LineShaped(line)
    requires ByGroups(line).Some?
    ensures var g := ByGroups(line).value;
      var e := |g[0].value| + |g[2].value|;
      && g[1] == Some("")
      && e <= |line|
      && g[0].value + g[2].value + line[e..] == line
      && (line[e..] == "" || line[e..] == "\n")
      && exists p :: ByMatchAt(g[0].value, p)
  {
    var g := ByGroups(line).value;
    var p := FirstByAt(line, 0).value;
    var l := WsEnd(line, p + |ByLabel|);
    assert g[0].value == line[..l] && g[2].value == line[l..MatchEnd(line, l)];
    MatchEndSplit(line, l);
    assert g[0].value[p..p + |ByLabel|] == line[p..p + |ByLabel|];
    assert ByMatchAt(g[0].value, p);
  }

  /** Cutting a line at `x` and at the match end from `x` leaves at most the final newline. */
  lemma MatchEndSplit(line: string, x: nat)
    requires x <= |line| && LineShaped(line)
    ensures var e := MatchEnd(line, x);
      && line[..x] + line[x..e] + line[e..] == line
      && (line[e..] == "" || line[e..] == "\n")
  {
    var e := MatchEnd(line, x);
    assert line[..x] + line[x..e] == line[..e];
  }

  // ---------------------------------------------------------------------------
  // RE_CREATED / RE_UPDATED: the declarative statement
  // ---------------------------------------------------------------------------

  /** `t` has the shape `\s+by\s+.*`, with whitespace runs ending at `a` and `b`. */
  predicate ByTailShape(t: string, a: int, b: int) {
    && 0 < a && a + 2 < b <= |t|
    && AllWs(t[..a]) && t[a] == 'b' && t[a + 1] == 'y'
    && AllWs(t[a + 2..b]) && NoNewline(t[b..])
  }

  /** The third group's pattern `\s+by\s+.*` matches all of `t`. */
  ghost predicate IsByTail(t: string) {
    exists a, b :: ByTailShape(t, a, b)
  }

  /** A match of the date regex for label `key` at `p` with groups
      `line[..l]`, `line[l..v]`, `line[v..t]` and `$` at `t`. */
  ghost predicate DateMatch(line: string, key: string, p: int, l: int, v: int, t: int) {
    && 0 <= p && p + |key| <= l <= v <= t <= |line|
    && OccursAt(line, key, p) && WordBoundaryBefore(line, p)
    && AllWs(line[p + |key|..l])
    && IsStamp(line[l..v])
    && IsByTail(line[v..t])
    && DollarAt(line, t)
  }

  /** Some match has its key at `p`. */
  ghost predicate MatchesAt(line: string, key: string, p: int) {
    exists l, v, t :: DateMatch(line, key, p, l, v, t)
  }

  /** Positions of a date-field match: the key, and the ends of the three groups. */
  datatype FieldMatch = FieldMatch(at: nat, leftEnd: nat, valueEnd: nat, tailEnd: nat)

  /** The match `re.match` reports: the lazy `.*?` picks the leftmost key
      position that leads to a match, the greedy `\s+by\s+.*` the longest tail. */
  ghost predicate IsReMatch(line: string, key: string, m: FieldMatch) {
    && DateMatch(line, key, m.at, m.leftEnd, m.valueEnd, m.tailEnd)
    && (forall q :: 0 <= q < m.at ==> !MatchesAt(line, key, q))
    && (m.tailEnd < |line| ==> !IsByTail(line[m.valueEnd..]))
  }

  // ---------------------------------------------------------------------------
  // RE_CREATED / RE_UPDATED: the matcher
  // ---------------------------------------------------------------------------

  /** The stamp pattern read directly on the line between `l` and `v`. */
  predicate StampFields(line: string, l: int, v: int) {
    && 0 <= l && l + 19 <= v <= |line|
    && AllDigits(line[l..l + 4]) && line[l + 4] == '/' && AllDigits(line[l + 5..l + 7])
    && line[l + 7] == '/' && AllDigits(line[l + 8..l + 10])
    && AllWs(line[l + 10..v - 8])
    && AllDigits(line[v - 8..v - 6]) && line[v - 6] == ':'
    && AllDigits(line[v - 5..v - 3]) && line[v - 3] == ':'
    && AllDigits(line[v - 2..v])
  }

  lemma StampFieldsIsStamp(line: string, l: nat, v: nat)
    requires l <= v <= |line|
    ensures IsStamp(line[l..v]) <==> StampFields(line, l, v)
  {
    var s := line[l..v];
    if |s| >= 19 {
      SliceOfSlice(line, l, v, 0, 4);
      SliceOfSlice(line, l, v, 5, 7);
      SliceOfSlice(line, l, v, 8, 10);
      SliceOfSlice(line, l, v, 10, |s| - 8);
      SliceOfSlice(line, l, v, |s| - 8, |s| - 6);
      SliceOfSlice(line, l, v, |s| - 5, |s| - 3);
      SliceOfSlice(line, l, v, |s| - 2, |s|);
    }
  }

  /** The end of the stamp that starts at `l`, if one does. */
  function StampEnd(line: string, l: nat): (r: Option<nat>)
    requires l <= |line|
    ensures r.Some? ==> l + 19 <= r.value <= |line| && IsStamp(line[l..r.value])
  {
    if l + 10 <= |line| && AllDigits(line[l..l + 4]) && line[l + 4] == '/' && AllDigits(line[l + 5..l + 7])
       && line[l + 7] == '/' && AllDigits(line[l + 8..l + 10])
    then
      var k := WsEnd(line, l + 10);
      if k > l + 10 && k + 8 <= |line| && AllDigits(line[k..k + 2]) && line[k + 2] == ':'
         && AllDigits(line[k + 3..k + 5]) && line[k + 5] == ':' && AllDigits(line[k + 6..k + 8])
      then
        StampFieldsIsStamp(line, l, k + 8);
        Some(k + 8)
      else None
    else None
  }

  lemma StampEndComplete(line: string, l: nat, v: nat)
    requires l <= v <= |line|
    requires IsStamp(line[l..v])
    ensures StampEnd(line, l) == Some(v)
  {
    StampFieldsIsStamp(line, l, v);
    assert line[v - 8..v - 6][0] == line[v - 8];
    WsEndUnique(line, l + 10, v - 8);
  }

  /** The tail shape read directly on the line: runs end at `a` and `b`, `$` at `t`. */
  lemma ByTailShapeInLine(line: string, v: nat, a: nat, b: nat, t: nat)
    requires v < a && a + 2 < b <= t <= |line|
    ensures ByTailShape(line[v..t], a - v, b - v) <==>
      && AllWs(line[v..a]) && line[a] == 'b' && line[a + 1] == 'y'
      && AllWs(line[a + 2..b]) && NoNewline(line[b..t])
  {
    SliceOfSlice(line, v, t, 0, a - v);
    SliceOfSlice(line, v, t, a - v + 2, b - v);
    SliceOfSlice(line, v, t, b - v, t - v);
  }

  /** When everything after `v` is a by-tail and the line ends in a newline, the
      whitespace after `by` runs to the very end: the newline belongs to it. */
  lemma ByTailGreedy(line: string, v: nat)
    requires v <= |line|
    requires LineShaped(line)
    requires IsByTail(line[v..])
    requires |line| > 0 && line[|line| - 1] == '\n'
    ensures WsEnd(line, v) + 2 <= |line|
    ensures WsEnd(line, WsEnd(line, v) + 2) == |line|
  {
    var a, b :| ByTailShape(line[v..], a, b);
    var A := v + a;
    var B := v + b;
    assert line[v..] == line[v..|line|];
    ByTailShapeInLine(line, v, A, B, |line|);
    WsEndUnique(line, v, A);
    assert B >= |line|;
    WsEndCovers(line, A + 2, |line|);
  }

  /** The end of the greedy `\s+by\s+.*$` that starts at `v`, if it matches. */
  function ByTailEnd(line: string, v: nat): (r: Option<nat>)
    requires v <= |line|
    requires LineShaped(line)
    ensures r.Some? ==> v < r.value <= |line| && IsByTail(line[v..r.value]) && DollarAt(line, r.value)
    ensures r.Some? && r.value < |line| ==> !IsByTail(line[v..])
  {
    var a := WsEnd(line, v);
    if a > v && a + 2 <= |line| && line[a] == 'b' && line[a + 1] == 'y' then
      var b := WsEnd(line, a + 2);
      if b > a + 2 then
        var t := MatchEnd(line, b);
        ByTailShapeInLine(line, v, a, b, t);
        assert ByTailShape(line[v..t], a - v, b - v);
        if t < |line| then
          assert !IsByTail(line[v..]) by {
            if IsByTail(line[v..]) {
              ByTailGreedy(line, v);
            }
          }
          Some(t)
        else Some(t)
      else None
    else None
  }

  lemma ByTailEndComplete(line: string, v: nat, t: nat)
    requires v <= t <= |line|
    requires LineShaped(line)
    requires IsByTail(line[v..t])
    ensures ByTailEnd(line, v).Some?
  {
    var a, b :| ByTailShape(line[v..t], a, b);
    ByTailShapeInLine(line, v, v + a, v + b, t);
    WsEndUnique(line, v, v + a);
    WsEndCovers(line, v + a + 2, v + b);
  }

  /** The date regex tried with its label at `p` (one step of the lazy `.*?`). */
  function MatchDateAt(line: string, key: string, p: nat): (r: Option<FieldMatch>)
    requires LineShaped(line)
    ensures r.Some? ==> r.value.at == p
    ensures r.Some? ==> DateMatch(line, key, p, r.value.leftEnd, r.value.valueEnd, r.value.tailEnd)
    ensures r.Some? && r.value.tailEnd < |line| ==> !IsByTail(line[r.value.valueEnd..])
  {
    if p + |key| <= |line| && OccursAt(line, key, p) && WordBoundaryBefore(line, p) then
      var l := WsEnd(line, p + |key|);
      match StampEnd(line, l)
      case None => None
      case Some(v) =>
        match ByTailEnd(line, v)
        case None => None
        case Some(t) => Some(FieldMatch(p, l, v, t))
    else None
  }

  lemma MatchDateAtComplete(line: string, key: string, p: nat)
    requires LineShaped(line)
    ensures MatchesAt(line, key, p) ==> MatchDateAt(line, key, p).Some?
  {
    if MatchesAt(line, key, p) {
      var l, v, t :| DateMatch(line, key, p, l, v, t);
      StampFieldsIsStamp(line, l, v);
      assert line[l..l + 4][0] == line[l];
      WsEndUnique(line, p + |key|, l);
      StampEndComplete(line, l, v);
      ByTailEndComplete(line, v, t);
    }
  }

  /** The lazy `.*?`: the first label position from `p` on whose continuation matches. */
  function FirstDateMatch(line: string, key: string, p: nat): (r: Option<FieldMatch>)
    requires LineShaped(line)
    ensures r.Some? ==> p <= r.value.at
    ensures r.Some? ==> DateMatch(line, key, r.value.at, r.value.leftEnd, r.value.valueEnd, r.value.tailEnd)
    ensures r.Some? && r.value.tailEnd < |line| ==> !IsByTail(line[r.value.valueEnd..])
    ensures r.Some? ==> forall q :: p <= q < r.value.at ==> !MatchesAt(line, key, q)
    ensures r.None? ==> forall q :: p <= q ==> !MatchesAt(line, key, q)
    decreases |line| + 1 - p
  {
    if p > |line| then None
    else
      MatchDateAtComplete(line, key, p);
      match MatchDateAt(line, key, p)
      case Some(m) => Some(m)
      case None => FirstDateMatch(line, key, p + 1)
  }

  /** `re_obj.match(line)` for RE_CREATED (`key` = "Created:") or RE_UPDATED. */
  function SplitDate(line: string, key: string): (r: Option<FieldMatch>)
    requires LineShaped(line)
    ensures r.Some? ==> IsReMatch(line, key, r.value)
    ensures r.None? <==> forall p :: !MatchesAt(line, key, p)
  {
    var r := FirstDateMatch(line, key, 0);
    assert r.Some? ==> MatchesAt(line, key, r.value.at);
    assert forall p :: p < 0 ==> !MatchesAt(line, key, p);
    r
  }

  /** A match reported by `re.match` is a match at its key position. */
  lemma ReMatchMatches(line: string, key: string, m: FieldMatch)
    requires IsReMatch(line, key, m)
    ensures MatchesAt(line, key, m.at)
  {
  }

  /** Both matches have their key at the same place: each is the leftmost. */
  lemma ReMatchSameAt(line: string, key: string, m1: FieldMatch, m2: FieldMatch)
    requires IsReMatch(line, key, m1) && IsReMatch(line, key, m2)
    ensures m1.at == m2.at
  {
    ReMatchMatches(line, key, m1);
    ReMatchMatches(line, key, m2);
  }

  /** Two matches at the same key share their left group: `\s*` is greedy and
      a stamp starts with a digit. */
  lemma DateMatchSameLeft(line: string, key: string, p: int, l1: int, v1: int, t1: int, l2: int, v2: int, t2: int)
    requires DateMatch(line, key, p, l1, v1, t1) && DateMatch(line, key, p, l2, v2, t2)
    ensures l1 == l2
  {
    StampFieldsIsStamp(line, l1, v1);
    StampFieldsIsStamp(line, l2, v2);
    assert line[l1..l1 + 4][0] == line[l1];
    assert line[l2..l2 + 4][0] == line[l2];
    WsEndUnique(line, p + |key|, l1);
    WsEndUnique(line, p + |key|, l2);
  }

  /** Two stamps that start at the same place end at the same place. */
  lemma StampSameEnd(line: string, l: nat, v1: nat, v2: nat)
    requires l <= v1 <= |line| && l <= v2 <= |line|
    requires IsStamp(line[l..v1]) && IsStamp(line[l..v2])
    ensures v1 == v2
  {
    StampEndComplete(line, l, v1);
    StampEndComplete(line, l, v2);
  }

  /** `re.match` reports at most one match. */
  lemma ReMatchUnique(line: string, key: string, m1: FieldMatch, m2: FieldMatch)
    requires IsReMatch(line, key, m1) && IsReMatch(line, key, m2)
    ensures m1 == m2
  {
    ReMatchSameAt(line, key, m1, m2);
    DateMatchSameLeft(line, key, m1.at, m1.leftEnd, m1.valueEnd, m1.tailEnd, m2.leftEnd, m2.valueEnd, m2.tailEnd);
    StampSameEnd(line, m1.leftEnd, m1.valueEnd, m2.valueEnd);
    assert line[m1.valueEnd..|line|] == line[m1.valueEnd..];
  }

  lemma ReMatchUniqueAll(line: string, key: string, m: FieldMatch)
    requires IsReMatch(line, key, m)
    ensures forall m' :: IsReMatch(line, key, m') ==> m' == m
  {
    forall m' | IsReMatch(line, key, m')
      ensures m' == m
    {
      ReMatchUnique(line, key, m', m);
    }
  }

  /** `adjust_width_preserving_tail(line, new_line) if preserve_width else new_line`. */
  function MaybeAdjust(oldLine: string, newLine: string, preserveWidth: bool): (r: string)
    ensures !preserveWidth ==> r == newLine
    ensures preserveWidth && Width.CanFlex(oldLine, newLine) ==> |r| == |oldLine|
    ensures preserveWidth && !Width.CanFlex(oldLine, newLine) ==> r == newLine
    ensures LineShaped(newLine) ==> LineShaped(r)
  {
    if preserveWidth then Width.AdjustWidth(oldLine, newLine) else newLine
  }

  /** The line built from a date match: group 1, the new stamp, group 3. */
  lemma RebuiltLineShaped(line: string, key: string, m: FieldMatch, stamp: string)
    requires LineShaped(line)
    requires DateMatch(line, key, m.at, m.leftEnd, m.valueEnd, m.tailEnd)
    requires NoNewline(stamp)
    ensures LineShaped(line[..m.leftEnd] + stamp + line[m.valueEnd..m.tailEnd])
  {
    var left := line[..m.leftEnd];
    var tail := line[m.valueEnd..m.tailEnd];
    var n := left + stamp + tail;
    assert m.leftEnd + 19 <= m.valueEnd < m.tailEnd;
    forall j | 0 <= j < |n| - 1
      ensures n[j] != '\n'
    {
      if j < |left| {
        assert n[j] == line[j];
      } else if j < |left| + |stamp| {
        assert n[j] == stamp[j - |left|];
      } else {
        assert n[j] == line[m.valueEnd + j - |left| - |stamp|];
      }
    }
  }

  /** `update_dt_line(line, re_obj, new_dt, preserve_width)`. */
  function UpdateDateLine(line: string, key: string, d: DateTime, preserveWidth: bool): (r: string)
    requires LineShaped(line)
    requires d.Valid()
    ensures LineShaped(r)
    ensures (forall p :: !MatchesAt(line, key, p)) ==> r == line
    ensures forall m :: IsReMatch(line, key, m) ==>
      r == MaybeAdjust(line, line[..m.leftEnd] + Format42(d) + line[m.valueEnd..m.tailEnd], preserveWidth)
  {
    match SplitDate(line, key)
    case None =>
      assert forall m :: IsReMatch(line, key, m) ==> MatchesAt(line, key, m.at);
      line
    case Some(m) =>
      ReMatchUniqueAll(line, key, m);
      var stamp := Format42(d);
      Format42NoNewline(d);
      RebuiltLineShaped(line, key, m, stamp);
      MaybeAdjust(line, line[..m.leftEnd] + stamp + line[m.valueEnd..m.tailEnd], preserveWidth)
  }

  // ---------------------------------------------------------------------------
  // Properties of the date rewrite
  // ---------------------------------------------------------------------------

  /** A character the part of a date match between its key and the text after
      `by` can hold. */
  predicate MatchBodyChar(c: char) {
    IsStampChar(c) || c == 'b' || c == 'y'
  }

  /** Both labels start with a character found nowhere else in them, nor in the
      body of a match. */
  lemma DateLabelHead(key: string)
    requires DateLabel(key)
    ensures |key| > 0
    ensures forall i :: 1 <= i < |key| ==> key[i] != key[0]
    ensures !MatchBodyChar(key[0])
  {
  }

  /** Two occurrences of a label never overlap. */
  lemma DateLabelApart(s: string, key: string, q: int, p: int)
    requires DateLabel(key)
    requires q < p && OccursAt(s, key, q) && OccursAt(s, key, p)
    ensures q + |key| <= p
  {
    DateLabelHead(key);
    assert s[p] == key[0];
    assert forall j :: q <= j < q + |key| ==> s[j] == key[j - q];
  }

  /** Every character between the end of the key and the start of `.*` in a
      match is whitespace, a stamp character, or a letter of `by`. */
  lemma MatchBodyChars(s: string, key: string, q: int, l: int, v: int, t: int, a: int, b: int)
    requires DateMatch(s, key, q, l, v, t)
    requires ByTailShape(s[v..t], a, b)
    ensures forall j :: q + |key| <= j < v + b ==> MatchBodyChar(s[j])
  {
    StampChars(s[l..v]);
    ByTailShapeInLine(s, v, v + a, v + b, t);
    forall j | q + |key| <= j < v + b
      ensures MatchBodyChar(s[j])
    {
      if j < l {
        assert s[q + |key|..l][j - q - |key|] == s[j];
      } else if j < v {
        assert s[l..v][j - l] == s[j];
      } else if j < v + a {
        assert s[v..v + a][j - v] == s[j];
      } else if j >= v + a + 2 {
        assert s[v + a + 2..v + b][j - v - a - 2] == s[j];
      }
    }
  }

  /** Two strings that agree up to `p` agree on every slice below `p`. */
  lemma SameBelow(s1: string, s2: string, p: nat, i: nat, j: nat)
    requires p <= |s1| && p <= |s2| && s1[..p] == s2[..p]
    requires i <= j <= p
    ensures s1[i..j] == s2[i..j]
  {
    SliceOfSlice(s1, 0, p, i, j);
    SliceOfSlice(s2, 0, p, i, j);
  }

  /** The part of a match at `q` before `.*` ends before a later occurrence of
      the label. */
  lemma MatchBodyBeforeLabel(s: string, key: string, q: int, l: int, v: int, t: int, a: int, b: int, p: int)
    requires DateLabel(key)
    requires DateMatch(s, key, q, l, v, t)
    requires ByTailShape(s[v..t], a, b)
    requires q < p && OccursAt(s, key, p)
    ensures v + b <= p
  {
    DateLabelApart(s, key, q, p);
    MatchBodyChars(s, key, q, l, v, t, a, b);
    DateLabelHead(key);
    assert s[p] == key[0];
  }

  /** A match at `q` that starts before another occurrence `p` of the label
      only reads the text before `p`, so it is also a match in any line that
      agrees with this one up to `p`. */
  lemma TransferEarlierMatch(s1: string, s2: string, key: string, q: int, p: int)
    requires DateLabel(key) && LineShaped(s2)
    requires 0 <= q < p && p + |key| <= |s1| && p <= |s2|
    requires s1[..p] == s2[..p]
    requires OccursAt(s1, key, p)
    requires MatchesAt(s1, key, q)
    ensures MatchesAt(s2, key, q)
  {
    var l, v, t :| DateMatch(s1, key, q, l, v, t);
    var a, b :| ByTailShape(s1[v..t], a, b);
    MatchBodyBeforeLabel(s1, key, q, l, v, t, a, b, p);
    TransferMatchBody(s1, s2, key, q, l, v, t, a, b, p);
  }

  /** The construction behind `TransferEarlierMatch`, once the body of the match
      is known to end by `p`. */
  lemma TransferMatchBody(s1: string, s2: string, key: string, q: int, l: int, v: int, t: int, a: int, b: int, p: int)
    requires LineShaped(s2)
    requires DateMatch(s1, key, q, l, v, t)
    requires ByTailShape(s1[v..t], a, b)
    requires v + b <= p <= |s1| && p <= |s2| && s1[..p] == s2[..p]
    ensures DateMatch(s2, key, q, l, v, MatchEnd(s2, v + b))
  {
    SameBelow(s1, s2, p, q, q + |key|);
    SameBelow(s1, s2, p, q + |key|, l);
    SameBelow(s1, s2, p, l, v);
    assert q == 0 || s1[..p][q - 1] == s2[..p][q - 1];
    TransferTail(s1, s2, v, t, a, b, p);
  }

  /** The `\s+by\s+` part of a tail that ends by `p` carries over to a line that
      agrees up to `p`; `.*` then runs to that line's own end. */
  lemma TransferTail(s1: string, s2: string, v: int, t: int, a: int, b: int, p: int)
    requires LineShaped(s2)
    requires 0 <= v <= t <= |s1|
    requires ByTailShape(s1[v..t], a, b)
    requires v + b <= p <= |s1| && p <= |s2| && s1[..p] == s2[..p]
    ensures IsByTail(s2[v..MatchEnd(s2, v + b)])
  {
    SameBelow(s1, s2, p, v, v + a);
    SameBelow(s1, s2, p, v + a + 2, v + b);
    assert s1[..p][v + a] == s1[v + a] && s1[..p][v + a + 1] == s1[v + a + 1];
    assert s2[..p][v + a] == s2[v + a] && s2[..p][v + a + 1] == s2[v + a + 1];
    ByTailShapeInLine(s1, v, v + a, v + b, t);
    var t2 := MatchEnd(s2, v + b);
    ByTailShapeInLine(s2, v, v + a, v + b, t2);
    assert ByTailShape(s2[v..t2], a, b);
  }

  /** The line a date rewrite builds, before any width adjustment. */
  function RebuiltDateLine(line: string, m: FieldMatch, d: DateTime): (r: string)
    requires m.leftEnd <= m.valueEnd <= m.tailEnd <= |line|
    requires d.Valid()
    ensures |r| == m.leftEnd + 19 + (m.tailEnd - m.valueEnd)
    ensures r[..m.leftEnd] == line[..m.leftEnd]
    ensures r[m.leftEnd..m.leftEnd + 19] == Format42(d)
    ensures r[m.leftEnd + 19..] == line[m.valueEnd..m.tailEnd]
  {
    var r := line[..m.leftEnd] + Format42(d) + line[m.valueEnd..m.tailEnd];
    assert r[m.leftEnd + 19..] == line[m.valueEnd..m.tailEnd];
    r
  }

  /** On a rewritten line the regex finds the same key, the new stamp, and a tail
      that runs to the end of the line. */
  lemma RewrittenMatch(line: string, key: string, m: FieldMatch, d: DateTime)
    requires DateLabel(key) && LineShaped(line) && d.Valid()
    requires IsReMatch(line, key, m)
    ensures var r := RebuiltDateLine(line, m, d);
      IsReMatch(r, key, FieldMatch(m.at, m.leftEnd, m.leftEnd + 19, |r|))
  {
    RewrittenDateMatch(line, key, m, d);
    RewrittenNoEarlierAll(line, key, m, d);
  }

  lemma RewrittenNoEarlierAll(line: string, key: string, m: FieldMatch, d: DateTime)
    requires DateLabel(key) && LineShaped(line) && d.Valid()
    requires IsReMatch(line, key, m)
    ensures forall q :: 0 <= q < m.at ==> !MatchesAt(RebuiltDateLine(line, m, d), key, q)
  {
    forall q | 0 <= q < m.at
      ensures !MatchesAt(RebuiltDateLine(line, m, d), key, q)
    {
      RewrittenNoEarlier(line, key, m, d, q);
    }
  }

  /** No match on the rebuilt line starts before the key: it would be one on the
      original line too. */
  lemma RewrittenNoEarlier(line: string, key: string, m: FieldMatch, d: DateTime, q: int)
    requires DateLabel(key) && LineShaped(line) && d.Valid()
    requires m.at + |key| <= m.leftEnd <= m.valueEnd <= m.tailEnd <= |line|
    requires OccursAt(line, key, m.at)
    requires 0 <= q < m.at && !MatchesAt(line, key, q)
    ensures !MatchesAt(RebuiltDateLine(line, m, d), key, q)
  {
    var r := RebuiltDateLine(line, m, d);
    SameBelow(r, line, m.leftEnd, 0, m.at);
    SameBelow(r, line, m.leftEnd, m.at, m.at + |key|);
    if MatchesAt(r, key, q) {
      TransferEarlierMatch(r, line, key, q, m.at);
    }
  }

  /** The rebuilt line matches at the old key, with the new stamp and the old tail. */
  lemma RewrittenDateMatch(line: string, key: string, m: FieldMatch, d: DateTime)
    requires d.Valid()
    requires DateMatch(line, key, m.at, m.leftEnd, m.valueEnd, m.tailEnd)
    ensures var r := RebuiltDateLine(line, m, d);
      DateMatch(r, key, m.at, m.leftEnd, m.leftEnd + 19, |r|)
  {
    var r := RebuiltDateLine(line, m, d);
    var l := m.leftEnd;
    SameBelow(r, line, l, m.at, m.at + |key|);
    SameBelow(r, line, l, m.at + |key|, l);
    assert m.at == 0 || r[..l][m.at - 1] == line[..l][m.at - 1];
    assert r[l + 19..|r|] == line[m.valueEnd..m.tailEnd];
    assert r[l..l + 19] == Format42(d);
  }

  /** Once a match is known, `update_dt_line` without width preservation is the
      rebuilt line. */
  lemma UpdateDateLineAt(line: string, key: string, m: FieldMatch, d: DateTime)
    requires LineShaped(line) && d.Valid()
    requires IsReMatch(line, key, m)
    ensures UpdateDateLine(line, key, d, false) == RebuiltDateLine(line, m, d)
  {
    ReMatchMatches(line, key, m);
  }

  /** Rebuilding the rebuilt line at its own stamp is rebuilding the original. */
  lemma RebuildTwice(line: string, m: FieldMatch, d1: DateTime, d2: DateTime)
    requires m.leftEnd <= m.valueEnd <= m.tailEnd <= |line|
    requires d1.Valid() && d2.Valid()
    ensures var r := RebuiltDateLine(line, m, d1);
      RebuiltDateLine(r, FieldMatch(m.at, m.leftEnd, m.leftEnd + 19, |r|), d2) == RebuiltDateLine(line, m, d2)
  {
    var r := RebuiltDateLine(line, m, d1);
    assert r[m.leftEnd + 19..|r|] == line[m.valueEnd..m.tailEnd];
  }

  /** `update_dt_line` without width preservation, rewriting an already rewritten
      line: only the last date counts. */
  lemma DateRewriteOverwrites(line: string, key: string, d1: DateTime, d2: DateTime)
    requires DateLabel(key) && LineShaped(line) && d1.Valid() && d2.Valid()
    ensures UpdateDateLine(UpdateDateLine(line, key, d1, false), key, d2, false)
         == UpdateDateLine(line, key, d2, false)
  {
    var o := SplitDate(line, key);
    if o.Some? {
      var m := o.value;
      UpdateDateLineAt(line, key, m, d1);
      UpdateDateLineAt(line, key, m, d2);
      var r := RebuiltDateLine(line, m, d1);
      RewrittenMatch(line, key, m, d1);
      var m' := FieldMatch(m.at, m.leftEnd, m.leftEnd + 19, |r|);
      UpdateDateLineAt(r, key, m', d2);
      RebuildTwice(line, m, d1, d2);
    }
  }

  /** Rewriting an already rewritten line again with the same date changes
      nothing. The first rewrite itself may change the line, if only by losing
      its final newline. */
  lemma DateRewriteIdempotent(line: string, key: string, d: DateTime)
    requires DateLabel(key) && LineShaped(line) && d.Valid()
    ensures var r := UpdateDateLine(line, key, d, false);
      UpdateDateLine(r, key, d, false) == r
  {
    DateRewriteOverwrites(line, key, d, d);
  }

  /** The stamp the regex reads back from a rewritten line is the new date. */
  lemma DateRewriteReadsBack(line: string, key: string, d: DateTime)
    requires DateLabel(key) && LineShaped(line) && d.Valid()
    requires SplitDate(line, key).Some?
    ensures var r := UpdateDateLine(line, key, d, false);
      && SplitDate(r, key).Some?
      && var m := SplitDate(r, key).value;
         ParseStamp(r[m.leftEnd..m.valueEnd]) == Some(d)
  {
    var m := SplitDate(line, key).value;
    UpdateDateLineAt(line, key, m, d);
    var r := RebuiltDateLine(line, m, d);
    RewrittenMatch(line, key, m, d);
    var m' := FieldMatch(m.at, m.leftEnd, m.leftEnd + 19, |r|);
    var o := SplitDate(r, key);
    assert o.Some? by {
      assert MatchesAt(r, key, m.at);
    }
    ReMatchUnique(r, key, o.value, m');
    assert r[m'.leftEnd..m'.valueEnd] == Format42(d);
    ParseFormat(d);
  }

  /** On a line that ends in a newline, the rewritten line keeps the newline
      exactly when everything after the old stamp is whitespace, `by`, and
      whitespace: otherwise `.*` stops before the newline and it is lost. */
  lemma DateRewriteNewline(line: string, key: string, m: FieldMatch, d: DateTime)
    requires LineShaped(line) && d.Valid()
    requires EndsWith(line, "\n")
    requires IsReMatch(line, key, m)
    ensures EndsWith(UpdateDateLine(line, key, d, false), "\n") <==> IsByTail(line[m.valueEnd..])
  {
    UpdateDateLineAt(line, key, m, d);
    TailKeepsNewline(line, key, m);
    LastOfRebuilt(line, m, d);
  }

  /** The rebuilt line ends with the last character of the old tail. */
  lemma LastOfRebuilt(line: string, m: FieldMatch, d: DateTime)
    requires m.leftEnd <= m.valueEnd < m.tailEnd <= |line|
    requires d.Valid()
    ensures var r := RebuiltDateLine(line, m, d);
      EndsWith(r, "\n") <==> line[m.tailEnd - 1] == '\n'
  {
    var r := RebuiltDateLine(line, m, d);
    assert r[|r| - 1] == r[m.leftEnd + 19..][|r| - 1 - m.leftEnd - 19];
  }

  /** Where the tail of a match ends on a line that ends in a newline. */
  lemma TailKeepsNewline(line: string, key: string, m: FieldMatch)
    requires LineShaped(line)
    requires EndsWith(line, "\n")
    requires IsReMatch(line, key, m)
    ensures m.valueEnd < m.tailEnd
    ensures line[m.tailEnd - 1] == '\n' <==> IsByTail(line[m.valueEnd..])
  {
    assert line[|line| - 1] == '\n';
    if m.tailEnd == |line| {
      assert line[m.valueEnd..] == line[m.valueEnd..m.tailEnd];
    }
  }

  /** A label the line does not hold does not appear when a stamp is spliced
      between two of its pieces: the label's letters are not stamp characters,
      and its closing `:` cannot meet the stamp's leading digit. */
  lemma StampSpliceKeepsLabelOut(line: string, a: nat, b: nat, c: nat, s: string, key: string)
    requires a <= b <= c <= |line|
    requires DateLabel(key) && !Contains(line, key)
    requires |s| > 0 && IsDigit(s[0]) && forall k :: 0 <= k < |s| ==> IsStampChar(s[k])
    ensures !Contains(line[..a] + s + line[b..c], key)
  {
    var r := line[..a] + s + line[b..c];
    var e := a + |s|;
    if Contains(r, key) {
      var i :| 0 <= i <= |r| - |key| && OccursAt(r, key, i);
      if i + |key| <= a {
        assert r[0..a] == line[0..a];
        OccursInCopy(r, line, 0, 0, a, key, i);
      } else if i >= e {
        assert r[e..|r|] == line[b..c];
        OccursInCopy(r, line, e, b, c, key, i);
      } else {
        var k := if i >= a then i else a;
        assert r[k] == s[k - a];
        LabelAvoidsStampChar(r, key, i, k);
      }
    }
  }

  /** An occurrence inside a piece of `r` copied from `line[lo..hi]` is an
      occurrence in `line`. */
  lemma OccursInCopy(r: string, line: string, off: nat, lo: nat, hi: nat, key: string, i: int)
    requires lo <= hi <= |line| && off + (hi - lo) <= |r|
    requires r[off..off + (hi - lo)] == line[lo..hi]
    requires OccursAt(r, key, i) && off <= i && i + |key| <= off + (hi - lo)
    ensures Contains(line, key)
  {
    OccursInSlice(r, off, off + (hi - lo), key, i - off);
    OccursInSlice(line, lo, hi, key, i - off);
  }

  /** Inside an occurrence of a date label, only the closing `:` is a stamp character. */
  lemma LabelAvoidsStampChar(r: string, key: string, i: int, k: int)
    requires DateLabel(key) && OccursAt(r, key, i)
    requires i <= k < i + |key| && IsStampChar(r[k])
    ensures k == i + |key| - 1 && r[k] == ':'
  {
    assert r[k] == r[i..i + |key|][k - i];
  }

  /** With width preservation, a rewritten line whose run of spaces before the
      comment ender can absorb the change keeps the width of the old line. */
  lemma DateRewriteKeepsWidth(line: string, key: string, d: DateTime)
    requires LineShaped(line) && d.Valid()
    requires SplitDate(line, key).Some?
    requires Width.CanFlex(line, RebuiltDateLine(line, SplitDate(line, key).value, d))
    ensures |UpdateDateLine(line, key, d, true)| == |line|
  {
    var m := SplitDate(line, key).value;
    assert IsReMatch(line, key, m);
  }
}

=== FILE: header.dfy ===
/** Inserting a header into a file that has none: `comment_style_for_ext`,
    `build_header_block` and the splice of `insert_header_if_missing`, after
    the file has been read and split into lines. */
module Header {
  import opened Wrappers
  import opened Text
  import opened Stamp
  import opened Width
  import opened Fields
  import opened Rewrite

  // ---------------------------------------------------------------------------
  // Comment style
  // ---------------------------------------------------------------------------

  datatype CommentStyle = C | Hash

  const CExtensions: seq<string> := [".c", ".h", ".cpp", ".hpp", ".cc", ".cxx", ".java", ".js", ".ts", ".tsx", ".cs"]
  const HashExtensions: seq<string> := [".py", ".sh", ".rb", ".lua"]

  function LowerChar(c: char): (l: char) {
    if 'A' <= c <= 'Z' then (c as int + 32) as char else c
  }

  predicate IsUpper(c: char) {
    'A' <= c <= 'Z'
  }

  /** `str.lower()` on ASCII text: no upper-case letter is left, every other
      character stays where it was, and an upper-case letter becomes its
      lower-case partner, 32 code points on. */
  function Lower(s: string): (r: string)
    ensures |r| == |s|
    ensures forall i :: 0 <= i < |r| ==> !IsUpper(r[i])
    ensures forall i :: 0 <= i < |s| && !IsUpper(s[i]) ==> r[i] == s[i]
    ensures forall i :: 0 <= i < |s| && IsUpper(s[i]) ==> r[i] as int == s[i] as int + 32
    ensures forall i :: 0 <= i < |s| ==> r[i] == LowerChar(s[i])
  {
    seq(|s|, i requires 0 <= i < |s| => LowerChar(s[i]))
  }

  /** Lower-casing twice is lower-casing once. */
  lemma LowerIdempotent(s: string)
    ensures Lower(Lower(s)) == Lower(s)
  {
  }

  /** `comment_style_for_ext(ext)`: hash comments exactly for the script
      extensions, compared without regard to case; C comments otherwise. */
  function CommentStyleForExt(ext: string): (st: CommentStyle)
    ensures st == Hash <==> Lower(ext) in HashExtensions
  {
    var e := Lower(ext);
    if e in CExtensions then C
    else if e in HashExtensions then Hash
    else C
  }

  /** The style does not depend on the case of the extension. */
  lemma CommentStyleIgnoresCase(ext: string)
    ensures CommentStyleForExt(Lower(ext)) == CommentStyleForExt(ext)
  {
    LowerIdempotent(ext);
  }

  // ---------------------------------------------------------------------------
  // Paths (`os.path` on POSIX)
  // ---------------------------------------------------------------------------

  /** The last index of `c` in `s`, or -1. */
  function LastIndexOf(s: string, c: char): (r: int)
    ensures -1 <= r < |s|
    ensures r >= 0 ==> s[r] == c
    ensures forall j :: r < j < |s| ==> s[j] != c
    decreases |s|
  {
    if |s| == 0 then -1
    else if s[|s| - 1] == c then |s| - 1
    else LastIndexOf(s[..|s| - 1], c)
  }

  /** `os.path.basename(p)`: everything after the last `/`. */
  function Basename(p: string): (r: string)
    ensures '/' !in r
    ensures EndsWith(p, r)
    ensures |r| < |p| ==> p[|p| - |r| - 1] == '/'
  {
    var r := p[LastIndexOf(p, '/') + 1..];
    assert forall k :: 0 <= k < |r| ==> r[k] == p[LastIndexOf(p, '/') + 1 + k];
    r
  }

  /** Some character of `p[lo..hi]` is not a dot. */
  predicate HasNonDot(p: string, lo: int, hi: int)
    requires 0 <= lo && hi <= |p|
  {
    exists k :: lo <= k < hi && p[k] != '.'
  }

  /** `d` is a dot in the last path component with something other than dots
      before it in that component: a dot `splitext` may split at. */
  predicate ExtensionDotAt(p: string, d: int) {
    && LastIndexOf(p, '/') < d < |p| && p[d] == '.'
    && HasNonDot(p, LastIndexOf(p, '/') + 1, d)
  }

  /** A dot followed by neither dots nor slashes. */
  predicate ExtensionShaped(e: string) {
    |e| > 0 && e[0] == '.' && forall k :: 1 <= k < |e| ==> e[k] != '.' && e[k] != '/'
  }

  /** Every splittable dot lies at or before the last dot, which is then splittable too. */
  lemma LastDotSplits(p: string, d: int)
    requires ExtensionDotAt(p, d)
    ensures d <= LastIndexOf(p, '.') && ExtensionDotAt(p, LastIndexOf(p, '.'))
  {
    var k :| LastIndexOf(p, '/') + 1 <= k < d && p[k] != '.';
  }

  /** `os.path.splitext(p)`: the extension starts at the last dot of the last
      path component, unless only dots precede it there. */
  function SplitExt(p: string): (r: (string, string))
    ensures r.0 + r.1 == p
    ensures r.1 != "" ==> ExtensionShaped(r.1)
    ensures r.1 != "" <==> exists d :: ExtensionDotAt(p, d)
  {
    var dot := LastIndexOf(p, '.');
    if ExtensionDotAt(p, dot) then
      var e := p[dot..];
      assert forall k :: 0 <= k < |e| ==> e[k] == p[dot + k];
      (p[..dot], e)
    else
      assert forall d :: ExtensionDotAt(p, d) ==> false by {
        forall d | ExtensionDotAt(p, d)
          ensures false
        {
          LastDotSplits(p, d);
        }
      }
      (p, "")
  }

  // ---------------------------------------------------------------------------
  // The header block
  // ---------------------------------------------------------------------------

  /** `insert_header_if_missing` builds its block at the default width. */
  const DefaultWidth: int := 80

  /** `s.ljust(w)`. */
  function LJust(s: string, w: int): (r: string)
    ensures |r| == if w > |s| then w else |s|
    ensures r[..|s|] == s
    ensures AllSpaces(r[|s|..])
  {
    var r := s + Repeat(' ', w - |s|);
    assert r[..|s|] == s && r[|s|..] == Repeat(' ', w - |s|);
    r
  }

  /** The text of the By line: the email in angle brackets when one is given
      and non-empty (Python's `if email`). */
  function ByText(name: string, email: Option<string>): (r: string)
    ensures |r| >= 4 + |name| && r[..4 + |name|] == "By: " + name
    ensures |r| == 4 + |name| <==> email.None? || email.value == ""
    ensures email.Some? && email.value != "" ==> r[4 + |name|..] == " <" + email.value + ">"
  {
    "By: " + name + (if email.Some? && email.value != "" then " <" + email.value + ">" else "")
  }

  /** The four field texts, top to bottom. */
  function FieldTexts(filename: string, name: string, email: Option<string>, created: string, updated: string)
    : (t: seq<string>)
    ensures |t| == 4
  {
    ["File: " + Basename(filename),
     ByText(name, email),
     "Created: " + created + " by " + name,
     "Updated: " + updated + " by " + name]
  }

  /** A ruler line: `*` between the comment delimiters, or `#` throughout. */
  function Border(style: CommentStyle, width: int): (r: string)
    ensures |r| == if style == C then 6 + Max0(width - 6) else Max0(width)
    ensures NoNewline(r)
  {
    match style
    case C => "/* " + Repeat('*', width - 6) + " */"
    case Hash => Repeat('#', width)
  }

  function Max0(n: int): nat {
    if n > 0 then n else 0
  }

  /** An empty C comment line. */
  function BlankLine(width: int): (r: string)
    ensures |r| == 6 + Max0(width - 6)
    ensures NoNewline(r)
  {
    "/* " + Repeat(' ', width - 6) + " */"
  }

  /** A content line: `content(text)` for C, `hcontent(text)` for hash. */
  function Framed(style: CommentStyle, width: int, text: string): (r: string)
    ensures |r| == if style == C then 6 + Max0(width - 6 - |text|) + |text| else 2 + |text| + Max0(width - 2 - |text|)
    ensures NoNewline(text) ==> NoNewline(r)
  {
    match style
    case C => "/* " + LJust(text, width - 6) + " */"
    case Hash => "# " + text + Repeat(' ', width - 2 - |text|)
  }

  /** The characters that open a line of the block. */
  function Opener(style: CommentStyle): string {
    if style == C then "/* " else "# "
  }

  /** What the ruler and blank lines are made of: the comment delimiters around
      a run of `*` or spaces, or `#` from end to end. */
  lemma BorderLayout(style: CommentStyle, width: int)
    ensures var r := Border(style, width);
      && (style == C ==> r[..3] == "/* " && r[|r| - 3..] == " */" && forall k :: 3 <= k < |r| - 3 ==> r[k] == '*')
      && (style == Hash ==> forall k :: 0 <= k < |r| ==> r[k] == '#')
    ensures var r := BlankLine(width);
      r[..3] == "/* " && r[|r| - 3..] == " */" && AllSpaces(r[3..|r| - 3])
  {
    var b := BlankLine(width);
    assert b[3..|b| - 3] == Repeat(' ', width - 6);
    if style == C {
      var r := Border(style, width);
      assert forall k :: 3 <= k < |r| - 3 ==> r[k] == Repeat('*', width - 6)[k - 3];
    }
  }

  /** A content line is the opener, the text, and spaces up to the width, with
      the C closer at the end. */
  lemma FramedLayout(style: CommentStyle, width: int, text: string)
    ensures var r := Framed(style, width, text);
      var n := |Opener(style)| + |text|;
      && r[..n] == Opener(style) + text
      && (style == C ==> r[|r| - 3..] == " */" && AllSpaces(r[n..|r| - 3]))
      && (style == Hash ==> AllSpaces(r[n..]))
  {
    var r := Framed(style, width, text);
    if style == C {
      var j := LJust(text, width - 6);
      assert r[..3 + |text|] == "/* " + j[..|text|];
      assert r[3 + |text|..|r| - 3] == j[|text|..];
    } else {
      assert r[2 + |text|..] == Repeat(' ', width - 2 - |text|);
    }
  }

  /** The lines of `build_header_block` around the four field texts. */
  function Block(style: CommentStyle, width: int, texts: seq<string>): (r: seq<string>)
    requires |texts| == 4
    ensures style == C ==> |r| == 9 && r[0] == r[7] == Border(C, width) && r[1] == r[6] == BlankLine(width)
    ensures style == Hash ==> |r| == 7 && r[0] == r[5] == Border(Hash, width)
    ensures r[|r| - 1] == ""
    ensures forall k :: 0 <= k < 4 ==> r[FirstField(style) + k] == Framed(style, width, texts[k])
  {
    match style
    case C =>
      [Border(C, width), BlankLine(width),
       Framed(C, width, texts[0]), Framed(C, width, texts[1]),
       Framed(C, width, texts[2]), Framed(C, width, texts[3]),
       BlankLine(width), Border(C, width), ""]
    case Hash =>
      [Border(Hash, width),
       Framed(Hash, width, texts[0]), Framed(Hash, width, texts[1]),
       Framed(Hash, width, texts[2]), Framed(Hash, width, texts[3]),
       Border(Hash, width), ""]
  }

  /** Index of the File line in the block. */
  function FirstField(style: CommentStyle): nat {
    if style == C then 2 else 1
  }

  /** `build_header_block(filename, name, email, created_dt, updated_dt, style, width)`. */
  function BuildHeaderBlock(filename: string, name: string, email: Option<string>,
                            created: DateTime, updated: DateTime, style: CommentStyle, width: int)
    : (r: seq<string>)
    requires created.Valid() && updated.Valid()
    ensures |r| == (if style == C then 9 else 7) && r[|r| - 1] == ""
    ensures r[FirstField(style)] == Framed(style, width, "File: " + Basename(filename))
    ensures r[FirstField(style) + 1] == Framed(style, width, ByText(name, email))
    ensures r[FirstField(style) + 2] == Framed(style, width, "Created: " + Format42(created) + " by " + name)
    ensures r[FirstField(style) + 3] == Framed(style, width, "Updated: " + Format42(updated) + " by " + name)
  {
    Block(style, width, FieldTexts(filename, name, email, Format42(created), Format42(updated)))
  }

  /** A label the text starts with occurs in the content line right after the opener. */
  lemma FramedOccurs(style: CommentStyle, width: int, text: string, key: string)
    requires StartsWith(text, key)
    ensures OccursAt(Framed(style, width, text), key, |Opener(style)|)
  {
    var r := Framed(style, width, text);
    var pre := Opener(style);
    var n := |pre| + |text|;
    FramedLayout(style, width, text);
    assert r[0..n] == pre + text;
    SliceOfSlice(r, 0, n, |pre|, |pre| + |key|);
    assert (pre + text)[|pre|..|pre| + |key|] == text[0..|key|];
  }

  /** A field line holds its text right after the opening delimiter, so a
      label the text starts with occurs in the line. */
  lemma FramedContains(style: CommentStyle, width: int, text: string, key: string)
    requires StartsWith(text, key)
    ensures Contains(Framed(style, width, text), key)
  {
    FramedOccurs(style, width, text, key);
  }

  /** The block holds its By, Created and Updated lines within the scanned window,
      so any block whose field texts start with the labels is recognised. */
  lemma BlockDetected(style: CommentStyle, width: int, texts: seq<string>)
    requires |texts| == 4
    requires StartsWith(texts[1], ByLabel) && StartsWith(texts[2], CreatedLabel) && StartsWith(texts[3], UpdatedLabel)
    ensures LooksLike42Header(Block(style, width, texts))
  {
    var r := Block(style, width, texts);
    var f := FirstField(style);
    FramedContains(style, width, texts[1], ByLabel);
    FramedContains(style, width, texts[2], CreatedLabel);
    FramedContains(style, width, texts[3], UpdatedLabel);
    assert Contains(r[f + 1], ByLabel) && Contains(r[f + 2], CreatedLabel) && Contains(r[f + 3], UpdatedLabel);
  }

  lemma StartsWithExtend(s: string, t: string, key: string)
    requires StartsWith(s, key)
    ensures StartsWith(s + t, key)
  {
    assert (s + t)[0..|key|] == s[0..|key|];
  }

  /** A freshly built block is recognised as a 42 header. */
  lemma BuildHeaderBlockDetected(filename: string, name: string, email: Option<string>,
                                 created: DateTime, updated: DateTime, style: CommentStyle, width: int)
    requires created.Valid() && updated.Valid()
    ensures LooksLike42Header(BuildHeaderBlock(filename, name, email, created, updated, style, width))
  {
    var c := Format42(created);
    var u := Format42(updated);
    var texts := FieldTexts(filename, name, email, c, u);
    StartsWithExtend("By: ", name, ByLabel);
    StartsWithExtend("By: " + name, if email.Some? && email.value != "" then " <" + email.value + ">" else "", ByLabel);
    StartsWithExtend("Created: ", c, CreatedLabel);
    StartsWithExtend("Created: " + c, " by ", CreatedLabel);
    StartsWithExtend("Created: " + c + " by ", name, CreatedLabel);
    StartsWithExtend("Updated: ", u, UpdatedLabel);
    StartsWithExtend("Updated: " + u, " by ", UpdatedLabel);
    StartsWithExtend("Updated: " + u + " by ", name, UpdatedLabel);
    BlockDetected(style, width, texts);
  }

  /** With a width that leaves room for every text, all lines of the block but
      the final empty one are exactly `width` characters wide. */
  lemma BlockWidth(style: CommentStyle, width: int, texts: seq<string>)
    requires |texts| == 4
    requires forall k :: 0 <= k < 4 ==> |texts[k]| + 6 <= width
    ensures var r := Block(style, width, texts);
      forall k :: 0 <= k < |r| - 1 ==> |r[k]| == width
  {
    var r := Block(style, width, texts);
    forall k | 0 <= k < |r| - 1
      ensures |r[k]| == width
    {
      var f := FirstField(style);
      if f <= k < f + 4 {
        assert r[k] == Framed(style, width, texts[k - f]);
      }
    }
  }

  /** The deterministic spacing of `build_header_block`: with room for every
      field, each line of the block but the final empty one is `width` wide. */
  lemma BuildHeaderBlockWidth(filename: string, name: string, email: Option<string>,
                              created: DateTime, updated: DateTime, style: CommentStyle, width: int)
    requires created.Valid() && updated.Valid()
    requires |Basename(filename)| + 12 <= width && |ByText(name, email)| + 6 <= width && |name| + 38 <= width
    ensures var r := BuildHeaderBlock(filename, name, email, created, updated, style, width);
      forall k :: 0 <= k < |r| - 1 ==> |r[k]| == width
  {
    var texts := FieldTexts(filename, name, email, Format42(created), Format42(updated));
    BlockWidth(style, width, texts);
  }

  // ---------------------------------------------------------------------------
  // Inserting the header
  // ---------------------------------------------------------------------------

  /** `l if l.endswith("\n") else l + "\n"`. */
  function Terminate(l: string): (r: string)
    ensures EndsWith(r, "\n")
    ensures (|r| == |l| || |r| == |l| + 1) && r[..|l|] == l
    ensures r == l <==> EndsWith(l, "\n")
  {
    if EndsWith(l, "\n") then l else l + "\n"
  }

  /** `header_text`: every line of the block ended by a newline. */
  function HeaderText(ls: seq<string>): (r: string)
    ensures |ls| > 0 ==> |r| > 0 && r[|r| - 1] == '\n'
    ensures |ls| == 0 <==> r == ""
    decreases |ls|
  {
    if |ls| == 0 then ""
    else Terminate(ls[0]) + HeaderText(ls[1..])
  }

  /** Regrouping the two newlines of a two-line header text. */
  lemma AppendNewlineAssoc(a: string, j: string)
    ensures a + "\n" + (j + "\n") == (a + "\n" + j) + "\n"
  {
  }

  /** A line without a newline is given one. */
  lemma TerminateAppends(l: string)
    requires NoNewline(l)
    ensures Terminate(l) == l + "\n"
  {
    assert !EndsWith(l, "\n") by {
      if |l| > 0 {
        assert l[|l| - 1] != '\n';
      }
    }
  }

  /** For lines without newlines the header text is the newline-joined block
      followed by one more newline. */
  lemma {:induction false} HeaderTextJoin(ls: seq<string>)
    requires |ls| > 0
    requires forall i :: 0 <= i < |ls| ==> NoNewline(ls[i])
    ensures HeaderText(ls) == Join(ls, "\n") + "\n"
    decreases |ls|
  {
    TerminateAppends(ls[0]);
    if |ls| > 1 {
      var rest := ls[1..];
      HeaderTextJoin(rest);
      assert HeaderText(ls) == Terminate(ls[0]) + HeaderText(rest);
      assert Join(ls, "\n") == ls[0] + "\n" + Join(rest, "\n");
      AppendNewlineAssoc(ls[0], Join(rest, "\n"));
    } else {
      assert HeaderText(ls) == ls[0] + "\n" + HeaderText([]);
    }
  }

  /** The lines of the block the header text is made of, each ended by a newline. */
  function TerminatedLines(ls: seq<string>): (r: seq<string>)
    ensures |r| == |ls|
    ensures forall i :: 0 <= i < |ls| ==> r[i] == Terminate(ls[i])
    decreases |ls|
  {
    if |ls| == 0 then []
    else
      var rest := TerminatedLines(ls[1..]);
      assert forall i :: 1 <= i < |ls| ==> ([Terminate(ls[0])] + rest)[i] == rest[i - 1];
      [Terminate(ls[0])] + rest
  }

  /** Joined up, the terminated lines are the header text. */
  lemma {:induction false} TerminatedLinesConcat(ls: seq<string>)
    ensures Concat(TerminatedLines(ls)) == HeaderText(ls)
    decreases |ls|
  {
    if |ls| > 0 {
      var r := TerminatedLines(ls);
      var rest := TerminatedLines(ls[1..]);
      assert r[1..] == rest by {
        forall j | 0 <= j < |rest|
          ensures r[1..][j] == rest[j]
        {
          assert ls[1..][j] == ls[j + 1];
        }
      }
      TerminatedLinesConcat(ls[1..]);
      assert Concat(r) == r[0] + Concat(r[1..]);
    }
  }

  /** What `insert_header_if_missing` decides once the file is read. */
  datatype InsertResult = AlreadyHasHeader | Inserted(content: string)

  /** `insert_idx`: one when the first line is a shebang. */
  function InsertIndex(lines: seq<string>): (k: nat)
    ensures k <= |lines| && k <= 1
    ensures k == 1 <==> |lines| > 0 && StartsWith(lines[0], "#!")
  {
    if |lines| > 0 && StartsWith(lines[0], "#!") then 1 else 0
  }

  /** The block inserted for `path`: C or hash style by its extension, default width. */
  function NewBlock(path: string, name: string, email: Option<string>, created: DateTime, updated: DateTime)
    : (b: seq<string>)
    requires created.Valid() && updated.Valid()
    ensures var style := CommentStyleForExt(SplitExt(path).1);
      && |b| == (if style == C then 9 else 7)
      && b[0] == Border(style, DefaultWidth)
  {
    BuildHeaderBlock(path, name, email, created, updated, CommentStyleForExt(SplitExt(path).1), DefaultWidth)
  }

  /** The new block names the file by its base name in its first field line and
      ends with the blank line. */
  lemma NewBlockLayout(path: string, name: string, email: Option<string>, created: DateTime, updated: DateTime)
    requires created.Valid() && updated.Valid()
    ensures var b := NewBlock(path, name, email, created, updated);
      var style := CommentStyleForExt(SplitExt(path).1);
      && b[FirstField(style)] == Framed(style, DefaultWidth, "File: " + Basename(path))
      && b[FirstField(style) + 1] == Framed(style, DefaultWidth, ByText(name, email))
      && b[|b| - 1] == ""
  {
    var style := CommentStyleForExt(SplitExt(path).1);
    var r := BuildHeaderBlock(path, name, email, created, updated, style, DefaultWidth);
    assert NewBlock(path, name, email, created, updated) == r;
  }

  /** The new file text: the header text `h` put before line `InsertIndex(lines)`. */
  function Splice(lines: seq<string>, h: string): (content: string)
    ensures var at := |Concat(lines[..InsertIndex(lines)])|;
      && OccursAt(content, h, at)
      && content[..at] + content[at + |h|..] == Concat(lines)
  {
    var k := InsertIndex(lines);
    var a := Concat(lines[..k]);
    var b := Concat(lines[k..]);
    var content := a + h + b;
    assert content[..|a|] == a && content[|a|..|a| + |h|] == h && content[|a| + |h|..] == b;
    ConcatAppend(lines[..k], lines[k..]);
    assert lines[..k] + lines[k..] == lines;
    content
  }

  /** `insert_header_if_missing` on the lines `splitlines(keepends=True)` gave:
      nothing when the first lines already look like a header, otherwise the
      header for `path` spliced in. */
  function InsertHeader(path: string, lines: seq<string>, name: string, email: Option<string>,
                        created: DateTime, updated: DateTime): (r: InsertResult)
    requires created.Valid() && updated.Valid()
    ensures r == AlreadyHasHeader <==> LooksLike42Header(lines)
    ensures r.Inserted? ==> r.content == Splice(lines, HeaderText(NewBlock(path, name, email, created, updated)))
  {
    DetectionReadsWindowOnly(Window(lines), lines);
    if LooksLike42Header(Window(lines)) then AlreadyHasHeader
    else Inserted(Splice(lines, HeaderText(NewBlock(path, name, email, created, updated))))
  }

  /** The splice keeps a shebang first; without one the text starts with the header. */
  lemma SpliceKeepsShebang(lines: seq<string>, h: string)
    ensures InsertIndex(lines) == 1 ==> StartsWith(Splice(lines, h), lines[0])
    ensures InsertIndex(lines) == 0 ==> StartsWith(Splice(lines, h), h)
  {
    var c := Splice(lines, h);
    if InsertIndex(lines) == 1 {
      var at := |lines[0]|;
      assert lines[..1] == [lines[0]];
      assert Concat([lines[0]]) == lines[0] + Concat([]);
      assert Concat(lines) == lines[0] + Concat(lines[1..]);
      assert c[..at] == (c[..at] + c[at + |h|..])[..at];
    } else {
      assert lines[..0] == [];
    }
  }

  /** A shebang stays at the very top; without one the file starts with the header. */
  lemma InsertKeepsShebang(path: string, lines: seq<string>, name: string, email: Option<string>,
                           created: DateTime, updated: DateTime)
    requires created.Valid() && updated.Valid()
    requires !LooksLike42Header(lines)
    ensures var c := InsertHeader(path, lines, name, email, created, updated).content;
      && (InsertIndex(lines) == 1 ==> StartsWith(c, lines[0]))
      && (InsertIndex(lines) == 0 ==> StartsWith(c, HeaderText(NewBlock(path, name, email, created, updated))))
  {
    SpliceKeepsShebang(lines, HeaderText(NewBlock(path, name, email, created, updated)));
  }

  /** The header text starts with the first character of the block. */
  lemma HeaderTextFirst(ls: seq<string>)
    requires |ls| > 0 && |ls[0]| > 0
    ensures |HeaderText(ls)| > 0 && HeaderText(ls)[0] == ls[0][0]
  {
    var t := Terminate(ls[0]);
    assert t[..|ls[0]|] == ls[0];
    assert t[0] == ls[0][0];
  }

  /** A ruler of the default width opens with `/` or `#`. */
  lemma BorderStart(style: CommentStyle)
    ensures var r := Border(style, DefaultWidth);
      |r| > 0 && (r[0] == '/' || r[0] == '#')
  {
    var r := Border(style, DefaultWidth);
    BorderLayout(style, DefaultWidth);
    if style == C {
      assert r[..3][0] == r[0];
    }
  }

  /** The first line of every block is a ruler, never empty. */
  lemma HeaderTextStart(path: string, name: string, email: Option<string>, created: DateTime, updated: DateTime)
    requires created.Valid() && updated.Valid()
    ensures var h := HeaderText(NewBlock(path, name, email, created, updated));
      |h| > 0 && (h[0] == '/' || h[0] == '#')
  {
    var b := NewBlock(path, name, email, created, updated);
    BorderStart(CommentStyleForExt(SplitExt(path).1));
    HeaderTextFirst(b);
  }

  /** Spliced after a lone shebang without a newline, the header directly
      follows the shebang's last character. */
  lemma SpliceGlued(line: string, h: string)
    requires StartsWith(line, "#!")
    ensures Splice([line], h) == line + h
  {
    assert [line][..1] == [line] && [line][1..] == [];
    assert Concat([line]) == line + Concat([]);
  }

  /** A file that is one shebang line without a final newline: the header text
      is glued onto the shebang, so the interpreter line runs on into the first
      ruler of the header. */
  lemma ShebangRunsIntoHeader(path: string, line: string, name: string, email: Option<string>,
                              created: DateTime, updated: DateTime)
    requires created.Valid() && updated.Valid()
    requires StartsWith(line, "#!") && NoNewline(line) && !Contains(line, ByLabel)
    ensures var r := InsertHeader(path, [line], name, email, created, updated);
      && r.Inserted?
      && r.content[..|line|] == line
      && r.content[|line|] != '\n'
  {
    assert !InWindow([line], ByLabel);
    var h := HeaderText(NewBlock(path, name, email, created, updated));
    HeaderTextStart(path, name, email, created, updated);
    SpliceGluedAt(line, h);
  }

  /** After a lone shebang without a newline, the spliced text keeps the shebang
      and continues with the header's first character on the same line. */
  lemma SpliceGluedAt(line: string, h: string)
    requires StartsWith(line, "#!") && |h| > 0
    ensures var c := Splice([line], h);
      |c| > |line| && c[..|line|] == line && c[|line|] == h[0]
  {
    SpliceGlued(line, h);
    assert (line + h)[|line|] == h[0];
    assert (line + h)[..|line|] == line;
  }

  /** Where the header starts in the corrected splice: after the shebang line
      and the newline it is given when it has none. */
  function OwnLineAt(lines: seq<string>): (at: nat)
    ensures at >= |Concat(lines[..InsertIndex(lines)])|
  {
    var k := InsertIndex(lines);
    |Concat(lines[..k])| + if k == 1 && !EndsWith(lines[0], "\n") then 1 else 0
  }

  /** The corrected splice: a shebang line without a final newline is ended
      before the header is put after it, so the header starts on a line of its own. */
  function SpliceOwnLine(lines: seq<string>, h: string): (content: string)
    ensures var at := OwnLineAt(lines);
      && OccursAt(content, h, at)
      && (at == 0 || content[at - 1] == '\n')
      && content[..at] + content[at + |h|..] ==
        if InsertIndex(lines) == 1 && !EndsWith(lines[0], "\n") then lines[0] + "\n" + Concat(lines[1..])
        else Concat(lines)
  {
    var k := InsertIndex(lines);
    if k == 1 && !EndsWith(lines[0], "\n") then
      var a := lines[0] + "\n";
      var b := Concat(lines[1..]);
      var content := a + h + b;
      assert lines[..1] == [lines[0]];
      assert Concat([lines[0]]) == lines[0] + Concat([]);
      assert content[..|a|] == a && content[|a|..|a| + |h|] == h && content[|a| + |h|..] == b;
      content
    else
      var content := Splice(lines, h);
      assert k == 1 ==> content[..OwnLineAt(lines)] == lines[0] by {
        if k == 1 {
          assert lines[..1] == [lines[0]];
          assert Concat([lines[0]]) == lines[0] + Concat([]);
          assert Concat(lines) == lines[0] + Concat(lines[1..]);
          var at := OwnLineAt(lines);
          assert content[..at] == (content[..at] + content[at + |h|..])[..at];
        }
      }
      assert k == 1 ==> content[OwnLineAt(lines) - 1] == lines[0][|lines[0]| - 1];
      content
  }

  /** `insert_header_if_missing` with the corrected splice. */
  function InsertHeaderOwnLine(path: string, lines: seq<string>, name: string, email: Option<string>,
                               created: DateTime, updated: DateTime): (r: InsertResult)
    requires created.Valid() && updated.Valid()
    ensures r == AlreadyHasHeader <==> LooksLike42Header(lines)
    ensures r.Inserted? ==>
      var h := HeaderText(NewBlock(path, name, email, created, updated));
      var at := OwnLineAt(lines);
      OccursAt(r.content, h, at) && (at == 0 || r.content[at - 1] == '\n')
  {
    DetectionReadsWindowOnly(Window(lines), lines);
    if LooksLike42Header(Window(lines)) then AlreadyHasHeader
    else Inserted(SpliceOwnLine(lines, HeaderText(NewBlock(path, name, email, created, updated))))
  }

  /** The correction changes nothing unless the shebang line lacks its newline. */
  lemma OwnLineAgrees(path: string, lines: seq<string>, name: string, email: Option<string>,
                      created: DateTime, updated: DateTime)
    requires created.Valid() && updated.Valid()
    requires InsertIndex(lines) == 0 || EndsWith(lines[0], "\n")
    ensures InsertHeaderOwnLine(path, lines, name, email, created, updated)
         == InsertHeader(path, lines, name, email, created, updated)
  {
  }

  // ---------------------------------------------------------------------------
  // The file after insertion, line by line
  // ---------------------------------------------------------------------------

  /** The lines of the new file: the block's lines, each ended by a newline, put
      before line `InsertIndex(lines)`. This is what reading the new file back
      gives when the block's lines hold no newline and a shebang line ends with one. */
  function InsertedLines(lines: seq<string>, block: seq<string>): (r: seq<string>)
    ensures |r| == |lines| + |block|
  {
    var k := InsertIndex(lines);
    lines[..k] + TerminatedLines(block) + lines[k..]
  }

  /** The new lines are the lines before the insertion point, the terminated
      block, and the rest of the file, in that order. */
  lemma InsertedLinesParts(lines: seq<string>, block: seq<string>)
    ensures var r := InsertedLines(lines, block); var k := InsertIndex(lines);
      && r[..k] == lines[..k]
      && r[k..k + |block|] == TerminatedLines(block)
      && r[k + |block|..] == lines[k..]
  {
    var k := InsertIndex(lines);
    var a, t, b := lines[..k], TerminatedLines(block), lines[k..];
    ThreeParts(a, t, b, k, |block|);
    assert InsertedLines(lines, block) == a + t + b;
  }

  /** Line `i` of the block is line `InsertIndex(lines) + i` of the new file. */
  lemma InsertedLineAt(lines: seq<string>, block: seq<string>, i: nat)
    requires i < |block|
    ensures InsertedLines(lines, block)[InsertIndex(lines) + i] == Terminate(block[i])
  {
    var k := InsertIndex(lines);
    MiddleAt(lines[..k], TerminatedLines(block), lines[k..], k, i);
    TerminatedLineAt(block, i);
  }

  /** Line `i` of the terminated block is block line `i` ended by a newline. */
  lemma TerminatedLineAt(block: seq<string>, i: nat)
    requires i < |block|
    ensures TerminatedLines(block)[i] == Terminate(block[i])
  {
  }

  /** Element `i` of the middle part of a three-part concatenation. */
  lemma MiddleAt<T>(a: seq<T>, t: seq<T>, b: seq<T>, k: nat, i: nat)
    requires |a| == k && i < |t|
    ensures (a + t + b)[k + i] == t[i]
  {
  }

  /** A three-part concatenation sliced back into its parts. */
  lemma ThreeParts<T>(a: seq<T>, t: seq<T>, b: seq<T>, k: nat, n: nat)
    requires |a| == k && |t| == n
    ensures var r := a + t + b;
      && r[..k] == a
      && r[k..k + n] == t
      && r[k + n..] == b
  {
    var r := a + t + b;
    assert r[..k] == a;
    assert r[k..k + n] == t;
  }

  /** The inserted lines join up to the spliced text. */
  lemma InsertedLinesConcat(lines: seq<string>, block: seq<string>)
    ensures Concat(InsertedLines(lines, block)) == Splice(lines, HeaderText(block))
  {
    var k := InsertIndex(lines);
    var t := TerminatedLines(block);
    TerminatedLinesConcat(block);
    assert InsertedLines(lines, block) == lines[..k] + t + lines[k..];
    ConcatAppend(lines[..k] + t, lines[k..]);
    ConcatAppend(lines[..k], t);
  }

  lemma ContainsTerminated(l: string, key: string)
    requires Contains(l, key)
    ensures Contains(Terminate(l), key)
  {
    var i :| 0 <= i <= |l| - |key| && OccursAt(l, key, i);
    var t := Terminate(l);
    assert t[..|l|] == l;
    SliceOfSlice(t, 0, |l|, i, i + |key|);
    assert OccursAt(t, key, i);
  }

  /** A label in a line of the block is, after insertion, in the window. */
  lemma InsertedInWindow(lines: seq<string>, block: seq<string>, key: string)
    requires |block| < HeaderScanLines && InWindow(block, key)
    ensures InWindow(InsertedLines(lines, block), key)
  {
    var i :| 0 <= i < |block| && i < HeaderScanLines && Contains(block[i], key);
    InsertedLineContains(lines, block, i, key);
    InWindowAt(InsertedLines(lines, block), InsertIndex(lines) + i, key);
  }

  /** A label in line `i` of the block is in line `InsertIndex(lines) + i` of the new file. */
  lemma InsertedLineContains(lines: seq<string>, block: seq<string>, i: nat, key: string)
    requires i < |block| && Contains(block[i], key)
    ensures Contains(InsertedLines(lines, block)[InsertIndex(lines) + i], key)
  {
    ContainsTerminated(block[i], key);
    InsertedLineAt(lines, block, i);
  }

  /** A block that is recognised is still recognised after it is inserted. */
  lemma InsertedLinesDetected(lines: seq<string>, block: seq<string>)
    requires |block| < HeaderScanLines && LooksLike42Header(block)
    ensures LooksLike42Header(InsertedLines(lines, block))
  {
    InsertedInWindow(lines, block, ByLabel);
    InsertedInWindow(lines, block, CreatedLabel);
    InsertedInWindow(lines, block, UpdatedLabel);
  }

  /** Running the tool again on a file it has just given a header finds that
      header and inserts nothing. */
  lemma InsertTwice(path: string, lines: seq<string>, name: string, email: Option<string>,
                    created: DateTime, updated: DateTime,
                    name2: string, email2: Option<string>, created2: DateTime, updated2: DateTime)
    requires created.Valid() && updated.Valid() && created2.Valid() && updated2.Valid()
    requires !LooksLike42Header(lines)
    ensures var block := NewBlock(path, name, email, created, updated);
      && Concat(InsertedLines(lines, block)) == InsertHeader(path, lines, name, email, created, updated).content
      && InsertHeader(path, InsertedLines(lines, block), name2, email2, created2, updated2) == AlreadyHasHeader
  {
    var block := NewBlock(path, name, email, created, updated);
    BuildHeaderBlockDetected(path, name, email, created, updated, CommentStyleForExt(SplitExt(path).1), DefaultWidth);
    InsertedLinesDetected(lines, block);
    InsertedLinesConcat(lines, block);
  }

  /** A line without newlines, once ended by one, is a line as `readlines` yields it. */
  lemma TerminateLineShaped(l: string)
    requires NoNewline(l)
    ensures LineShaped(Terminate(l))
  {
    var t := Terminate(l);
    assert forall k :: 0 <= k < |l| ==> t[k] == l[k];
  }

  /** An occurrence in a line survives ending the line with a newline. */
  lemma OccursTerminated(l: string, key: string, p: nat)
    requires OccursAt(l, key, p)
    ensures OccursAt(Terminate(l), key, p)
    ensures p > 0 ==> Terminate(l)[p - 1] == l[p - 1]
  {
    var t := Terminate(l);
    assert t[..|l|] == l;
    SliceOfSlice(t, 0, |l|, p, p + |key|);
  }

  /** The By line of a block holds `By:` right after the opening delimiter and
      its space: a match of `\bBy:`, also once the line is ended by a newline. */
  lemma FramedByMatch(style: CommentStyle, width: int, text: string)
    requires StartsWith(text, ByLabel)
    ensures ByMatchAt(Terminate(Framed(style, width, text)), |Opener(style)|)
  {
    var r := Framed(style, width, text);
    var pre := Opener(style);
    FramedOccurs(style, width, text, ByLabel);
    FramedLayout(style, width, text);
    assert r[..|pre| + |text|][|pre| - 1] == r[|pre| - 1];
    OccursTerminated(r, ByLabel, |pre|);
  }

  /** Every line of a block built from one-line texts is one line. */
  lemma BlockNoNewline(style: CommentStyle, width: int, texts: seq<string>)
    requires |texts| == 4 && forall k :: 0 <= k < 4 ==> NoNewline(texts[k])
    ensures var b := Block(style, width, texts);
      forall i :: 0 <= i < |b| ==> NoNewline(b[i])
  {
    var b := Block(style, width, texts);
    forall i | 0 <= i < |b|
      ensures NoNewline(b[i])
    {
      var f := FirstField(style);
      if f <= i < f + 4 {
        assert b[i] == Framed(style, width, texts[i - f]);
      }
    }
  }

  lemma AllLineShapedAppend(a: seq<string>, b: seq<string>)
    requires AllLineShaped(a) && AllLineShaped(b)
    ensures AllLineShaped(a + b)
  {
    forall i | 0 <= i < |a + b|
      ensures LineShaped((a + b)[i])
    {
      if i < |a| {
        assert (a + b)[i] == a[i];
      } else {
        assert (a + b)[i] == b[i - |a|];
      }
    }
  }

  lemma AllLineShapedSlice(a: seq<string>, lo: nat, hi: nat)
    requires lo <= hi <= |a| && AllLineShaped(a)
    ensures AllLineShaped(a[lo..hi])
  {
    forall i | 0 <= i < hi - lo
      ensures LineShaped(a[lo..hi][i])
    {
      assert a[lo..hi][i] == a[lo + i];
    }
  }

  /** Inserting one-line block lines into well-formed lines keeps every line well formed. */
  lemma InsertedLinesShaped(lines: seq<string>, block: seq<string>)
    requires AllLineShaped(lines) && forall i :: 0 <= i < |block| ==> NoNewline(block[i])
    ensures AllLineShaped(InsertedLines(lines, block))
  {
    var k := InsertIndex(lines);
    var t := TerminatedLines(block);
    forall i | 0 <= i < |t|
      ensures LineShaped(t[i])
    {
      TerminateLineShaped(block[i]);
    }
    AllLineShapedSlice(lines, 0, k);
    AllLineShapedSlice(lines, k, |lines|);
    assert lines[0..k] == lines[..k] && lines[k..|lines|] == lines[k..];
    AllLineShapedAppend(lines[..k], t);
    AllLineShapedAppend(lines[..k] + t, lines[k..]);
    var r := InsertedLines(lines, block);
    assert r == r[..k] + r[k..k + |block|] + r[k + |block|..];
  }

  /** After a block is inserted into a file of well-formed lines, the update pass
      fails: the block's By line is a match of `RE_BY`, whose four groups do not
      unpack into three names. */
  lemma InsertedBlockBlocksUpdate(lines: seq<string>, style: CommentStyle, width: int, texts: seq<string>,
                                  name: string, email: Option<string>, created: DateTime, updated: DateTime,
                                  preserveWidth: bool)
    requires AllLineShaped(lines) && created.Valid() && updated.Valid()
    requires |texts| == 4 && forall k :: 0 <= k < 4 ==> NoNewline(texts[k])
    requires StartsWith(texts[1], ByLabel) && StartsWith(texts[2], CreatedLabel) && StartsWith(texts[3], UpdatedLabel)
    ensures var after := InsertedLines(lines, Block(style, width, texts));
      && AllLineShaped(after)
      && UpdateExisting(after, name, email, created, updated, preserveWidth).Failure?
  {
    var block := Block(style, width, texts);
    var f := FirstField(style) + 1;
    BlockNoNewline(style, width, texts);
    BlockDetected(style, width, texts);
    FramedByMatch(style, width, texts[1]);
    assert block[f] == Framed(style, width, texts[1]);
    InsertedHeaderBlocksUpdate(lines, block, f, |Opener(style)|, name, email, created, updated, preserveWidth);
  }

  /** The same for any detected block of one-line lines with a By match. */
  lemma InsertedHeaderBlocksUpdate(lines: seq<string>, block: seq<string>, f: nat, p: nat, name: string,
                                   email: Option<string>, created: DateTime, updated: DateTime, preserveWidth: bool)
    requires AllLineShaped(lines) && created.Valid() && updated.Valid()
    requires forall i :: 0 <= i < |block| ==> NoNewline(block[i])
    requires |block| < HeaderScanLines && LooksLike42Header(block)
    requires f < |block| && f + 1 < HeaderScanLines && ByMatchAt(Terminate(block[f]), p)
    ensures var after := InsertedLines(lines, block);
      && AllLineShaped(after)
      && UpdateExisting(after, name, email, created, updated, preserveWidth).Failure?
  {
    var after := InsertedLines(lines, block);
    InsertedLinesShaped(lines, block);
    InsertedLinesDetected(lines, block);
    InsertedLineAt(lines, block, f);
    assert ByMatchAt(after[InsertIndex(lines) + f], p);
    ByMatchBlocksUpdate(after, name, email, created, updated, preserveWidth);
  }

  /** A detected header with a By match in its window fails the update pass. */
  lemma ByMatchBlocksUpdate(lines: seq<string>, name: string, email: Option<string>, created: DateTime,
                            updated: DateTime, preserveWidth: bool)
    requires AllLineShaped(lines) && created.Valid() && updated.Valid()
    requires |lines| > 0 && LooksLike42Header(lines)
    requires exists i, p :: 0 <= i < |lines| && i < HeaderScanLines && ByMatchAt(lines[i], p)
    ensures UpdateExisting(lines, name, email, created, updated, preserveWidth).Failure?
  {
    UpdateExistingFails(lines, name, email, created, updated, preserveWidth);
  }

  /** The field texts are one line each when the name, the email and the file's
      base name are. */
  lemma FieldTextsOneLine(filename: string, name: string, email: Option<string>, c: string, u: string)
    requires NoNewline(name) && NoNewline(Basename(filename)) && (email.Some? ==> NoNewline(email.value))
    requires NoNewline(c) && NoNewline(u)
    ensures var texts := FieldTexts(filename, name, email, c, u);
      forall k :: 0 <= k < 4 ==> NoNewline(texts[k])
  {
    var texts := FieldTexts(filename, name, email, c, u);
    var t0 := "File: " + Basename(filename);
    var t1 := ByText(name, email);
    var t2 := "Created: " + c + " by " + name;
    var t3 := "Updated: " + u + " by " + name;
    assert NoNewline(t0) && NoNewline(t1) && NoNewline(t2) && NoNewline(t3);
    assert texts == [t0, t1, t2, t3];
  }

  /** The By, Created and Updated texts start with their labels. */
  lemma FieldTextsLabels(filename: string, name: string, email: Option<string>, c: string, u: string)
    ensures var texts := FieldTexts(filename, name, email, c, u);
      StartsWith(texts[1], ByLabel) && StartsWith(texts[2], CreatedLabel) && StartsWith(texts[3], UpdatedLabel)
  {
    var mail := if email.Some? && email.value != "" then " <" + email.value + ">" else "";
    StartsWithExtend("By: ", name, ByLabel);
    StartsWithExtend("By: " + name, mail, ByLabel);
    StartsWithExtend("Created: ", c, CreatedLabel);
    StartsWithExtend("Created: " + c, " by ", CreatedLabel);
    StartsWithExtend("Created: " + c + " by ", name, CreatedLabel);
    StartsWithExtend("Updated: ", u, UpdatedLabel);
    StartsWithExtend("Updated: " + u, " by ", UpdatedLabel);
    StartsWithExtend("Updated: " + u + " by ", name, UpdatedLabel);
  }

  /** A file this tool has just given a header cannot be updated afterwards: the
      header's own By line makes the update pass fail, whatever the new values. */
  lemma RerunAfterInsertFails(path: string, lines: seq<string>, name: string, email: Option<string>,
                              created: DateTime, updated: DateTime,
                              name2: string, email2: Option<string>, created2: DateTime, updated2: DateTime,
                              preserveWidth: bool)
    requires AllLineShaped(lines)
    requires created.Valid() && updated.Valid() && created2.Valid() && updated2.Valid()
    requires NoNewline(name) && NoNewline(Basename(path)) && (email.Some? ==> NoNewline(email.value))
    ensures var after := InsertedLines(lines, NewBlock(path, name, email, created, updated));
      && AllLineShaped(after)
      && UpdateExisting(after, name2, email2, created2, updated2, preserveWidth).Failure?
  {
    var c := Format42(created);
    var u := Format42(updated);
    Format42NoNewline(created);
    Format42NoNewline(updated);
    assert NoNewline(c) && NoNewline(u);
    FieldTextsOneLine(path, name, email, c, u);
    FieldTextsLabels(path, name, email, c, u);
    InsertedBlockBlocksUpdate(lines, CommentStyleForExt(SplitExt(path).1), DefaultWidth,
                              FieldTexts(path, name, email, c, u), name2, email2, created2, updated2, preserveWidth);
  }
}

=== FILE: rewrite.dfy ===
/** `looks_like_42_header` and the rewrite pass of `process_file_update_existing`
    once the file has been read: lines in, lines and a status out. */
module Rewrite {
  import opened Wrappers
  import opened Text
  import opened Stamp
  import opened Fields

  /** `HEADER_SCAN_LINES`: only this many lines at the top are examined. */
  const HeaderScanLines: nat := 20

  /** `lines[:HEADER_SCAN_LINES]`. */
  function Window(lines: seq<string>): (w: seq<string>)
    ensures |w| == Min(HeaderScanLines, |lines|)
    ensures forall i :: 0 <= i < |w| ==> w[i] == lines[i]
  {
    lines[..Min(HeaderScanLines, |lines|)]
  }

  /** `sub` occurs in one of the first `HEADER_SCAN_LINES` lines. */
  predicate InWindow(lines: seq<string>, sub: string) {
    exists i :: 0 <= i < |lines| && i < HeaderScanLines && Contains(lines[i], sub)
  }

  /** A window line holding `sub` is a witness for `InWindow`. */
  lemma InWindowAt(lines: seq<string>, j: nat, sub: string)
    requires j < |lines| && j < HeaderScanLines && Contains(lines[j], sub)
    ensures InWindow(lines, sub)
  {
  }

  /** `looks_like_42_header(lines)`: the three labels in the newline-joined window. */
  function LooksLike42Header(lines: seq<string>): (b: bool)
    ensures b <==> InWindow(lines, ByLabel) && InWindow(lines, CreatedLabel) && InWindow(lines, UpdatedLabel)
  {
    var w := Window(lines);
    var chunk := Join(w, "\n");
    JoinedWindow(lines, ByLabel);
    JoinedWindow(lines, CreatedLabel);
    JoinedWindow(lines, UpdatedLabel);
    Contains(chunk, ByLabel) && Contains(chunk, CreatedLabel) && Contains(chunk, UpdatedLabel)
  }

  /** A label occurs in the joined window exactly when it occurs in a window line. */
  lemma JoinedWindow(lines: seq<string>, sub: string)
    requires |sub| > 0 && '\n' !in sub
    ensures Contains(Join(Window(lines), "\n"), sub) <==> InWindow(lines, sub)
  {
    var w := Window(lines);
    ContainsInJoin(w, sub);
    if InWindow(lines, sub) {
      var i :| 0 <= i < |lines| && i < HeaderScanLines && Contains(lines[i], sub);
      assert w[i] == lines[i];
    }
  }

  /** Detection reads the window only: lines that agree on their first
      `HEADER_SCAN_LINES` entries are judged alike. */
  lemma DetectionReadsWindowOnly(a: seq<string>, b: seq<string>)
    requires Window(a) == Window(b)
    ensures LooksLike42Header(a) == LooksLike42Header(b)
  {
    forall sub | InWindow(a, sub)
      ensures InWindow(b, sub)
    {
      var i :| 0 <= i < |a| && i < HeaderScanLines && Contains(a[i], sub);
      assert Window(a)[i] == a[i] && Window(b)[i] == b[i];
    }
    forall sub | InWindow(b, sub)
      ensures InWindow(a, sub)
    {
      var i :| 0 <= i < |b| && i < HeaderScanLines && Contains(b[i], sub);
      assert Window(a)[i] == a[i] && Window(b)[i] == b[i];
    }
  }

  /** A `By:` match is an occurrence of the label, so the `"By:" in line` guard holds. */
  lemma ByMatchContains(line: string, p: int)
    requires ByMatchAt(line, p)
    ensures Contains(line, ByLabel)
  {
  }

  /** A line without `By:` has no `By:` match, so the step cannot fail on it. */
  lemma NoByNoMatch(line: string)
    requires !Contains(line, ByLabel)
    ensures forall p :: !ByMatchAt(line, p)
  {
    forall p | ByMatchAt(line, p)
      ensures false
    {
      ByMatchContains(line, p);
    }
  }

  /** One iteration of the loop: the guarded By, Created and Updated rewrites. */
  function RewriteLine(line: string, name: string, email: Option<string>,
                       created: DateTime, updated: DateTime, preserveWidth: bool)
    : (r: Result<string, RewriteError>)
    requires LineShaped(line) && created.Valid() && updated.Valid()
    ensures r.Failure? <==> exists p :: ByMatchAt(line, p)
    ensures r.Failure? ==> r.error == UnpackError(4, 3)
    ensures r.Success? ==> LineShaped(r.value)
  {
    assert (exists p :: ByMatchAt(line, p)) ==> Contains(line, ByLabel);
    var afterBy :- if Contains(line, ByLabel) then UpdateByLine(line, name, email, preserveWidth) else Success(line);
    var afterCreated :=
      if Contains(afterBy, CreatedLabel) then UpdateDateLine(afterBy, CreatedLabel, created, preserveWidth)
      else afterBy;
    var afterUpdated :=
      if Contains(afterCreated, UpdatedLabel) then UpdateDateLine(afterCreated, UpdatedLabel, updated, preserveWidth)
      else afterCreated;
    Success(afterUpdated)
  }

  /** A line holding none of the three labels is passed over. */
  lemma RewriteLineNoLabels(line: string, name: string, email: Option<string>,
                            created: DateTime, updated: DateTime, preserveWidth: bool)
    requires LineShaped(line) && created.Valid() && updated.Valid()
    requires !Contains(line, ByLabel) && !Contains(line, CreatedLabel) && !Contains(line, UpdatedLabel)
    ensures RewriteLine(line, name, email, created, updated, preserveWidth) == Success(line)
  {
  }

  /** A line on which neither date regex matches comes through the loop as it was,
      unless it holds a `By:` field, which makes the pass fail. */
  lemma RewriteLineKeepsUnmatched(line: string, name: string, email: Option<string>,
                                  created: DateTime, updated: DateTime, preserveWidth: bool)
    requires LineShaped(line) && created.Valid() && updated.Valid()
    requires forall p :: !MatchesAt(line, CreatedLabel, p)
    requires forall p :: !MatchesAt(line, UpdatedLabel, p)
    ensures var r := RewriteLine(line, name, email, created, updated, preserveWidth);
      r.Success? ==> r.value == line
  {
  }

  /** A line without the label cannot match that label's date regex. */
  lemma NoLabelNoMatch(line: string, key: string)
    requires !Contains(line, key)
    ensures forall p :: !MatchesAt(line, key, p)
  {
  }

  /** The `key in line` guard in front of a date rewrite skips only rewrites
      that would leave the line as it is. */
  lemma GuardedDateRewrite(line: string, key: string, d: DateTime, preserveWidth: bool)
    requires LineShaped(line) && d.Valid()
    ensures (if Contains(line, key) then UpdateDateLine(line, key, d, preserveWidth) else line)
         == UpdateDateLine(line, key, d, preserveWidth)
  {
    if !Contains(line, key) {
      NoLabelNoMatch(line, key);
    }
  }

  /** A successful step is the `Created:` rewrite followed by the `Updated:`
      rewrite of the line: the `By:` step leaves a line without a match as it is,
      and the `in` guards only skip rewrites that would change nothing. */
  lemma RewriteLineComposes(line: string, name: string, email: Option<string>,
                            created: DateTime, updated: DateTime, preserveWidth: bool)
    requires LineShaped(line) && created.Valid() && updated.Valid()
    ensures var r := RewriteLine(line, name, email, created, updated, preserveWidth);
      r.Success? ==>
        r.value == UpdateDateLine(UpdateDateLine(line, CreatedLabel, created, preserveWidth),
                                  UpdatedLabel, updated, preserveWidth)
  {
    GuardedDateRewrite(line, CreatedLabel, created, preserveWidth);
    GuardedDateRewrite(UpdateDateLine(line, CreatedLabel, created, preserveWidth),
                       UpdatedLabel, updated, preserveWidth);
  }

  /** Without width preservation, a line with an `Updated:` field and no other
      label comes out of the step with a field the regex reads as `updated`. */
  lemma RewriteLineWritesUpdated(line: string, name: string, email: Option<string>,
                                 created: DateTime, updated: DateTime)
    requires LineShaped(line) && created.Valid() && updated.Valid()
    requires !Contains(line, ByLabel) && !Contains(line, CreatedLabel)
    requires SplitDate(line, UpdatedLabel).Some?
    ensures var r := RewriteLine(line, name, email, created, updated, false);
      && r.Success?
      && SplitDate(r.value, UpdatedLabel).Some?
      && var m := SplitDate(r.value, UpdatedLabel).value;
         ParseStamp(r.value[m.leftEnd..m.valueEnd]) == Some(updated)
  {
    var r := RewriteLine(line, name, email, created, updated, false);
    NoByNoMatch(line);
    RewriteLineComposes(line, name, email, created, updated, false);
    NoLabelNoMatch(line, CreatedLabel);
    assert UpdateDateLine(line, CreatedLabel, created, false) == line;
    DateRewriteReadsBack(line, UpdatedLabel, updated);
  }

  /** Without width preservation, a line with a `Created:` field and no other
      label comes out of the step with a field the regex reads as `created`:
      the new stamp brings no `Updated:` with it for the next rewrite to touch. */
  lemma RewriteLineWritesCreated(line: string, name: string, email: Option<string>,
                                 created: DateTime, updated: DateTime)
    requires LineShaped(line) && created.Valid() && updated.Valid()
    requires !Contains(line, ByLabel) && !Contains(line, UpdatedLabel)
    requires SplitDate(line, CreatedLabel).Some?
    ensures var r := RewriteLine(line, name, email, created, updated, false);
      && r.Success?
      && SplitDate(r.value, CreatedLabel).Some?
      && var m := SplitDate(r.value, CreatedLabel).value;
         ParseStamp(r.value[m.leftEnd..m.valueEnd]) == Some(created)
  {
    var m := SplitDate(line, CreatedLabel).value;
    var r := RewriteLine(line, name, email, created, updated, false);
    NoByNoMatch(line);
    RewriteLineComposes(line, name, email, created, updated, false);
    UpdateDateLineAt(line, CreatedLabel, m, created);
    var stamp := Format42(created);
    StampChars(stamp);
    assert IsDigit(stamp[0]) by {
      assert stamp[0..4][0] == stamp[0];
    }
    StampSpliceKeepsLabelOut(line, m.leftEnd, m.valueEnd, m.tailEnd, stamp, UpdatedLabel);
    NoLabelNoMatch(RebuiltDateLine(line, m, created), UpdatedLabel);
    DateRewriteReadsBack(line, CreatedLabel, created);
  }

  predicate AllLineShaped(ls: seq<string>) {
    forall i :: 0 <= i < |ls| ==> LineShaped(ls[i])
  }

  /** The loop over the window with the per-line step `step`: the rewritten lines
      and whether any of them differs; the first failing step fails the loop. */
  function RewriteLines(ls: seq<string>, step: string --> Result<string, RewriteError>)
    : (r: Result<(seq<string>, bool), RewriteError>)
    requires forall i :: 0 <= i < |ls| ==> step.requires(ls[i])
    ensures r.Failure? <==> exists i :: 0 <= i < |ls| && step(ls[i]).Failure?
    ensures r.Success? ==> |r.value.0| == |ls|
    ensures r.Success? ==> forall i :: 0 <= i < |ls| ==> step(ls[i]) == Success(r.value.0[i])
    ensures r.Success? ==> (r.value.1 <==> exists i :: 0 <= i < |ls| && r.value.0[i] != ls[i])
    decreases |ls|
  {
    if |ls| == 0 then Success(([], false))
    else
      var first :- step(ls[0]);
      var tail := ls[1..];
      assert forall i :: 1 <= i < |ls| ==> tail[i - 1] == ls[i];
      var rest :- RewriteLines(tail, step);
      var out := [first] + rest.0;
      assert out[0] == first;
      assert forall i :: 1 <= i < |ls| ==> out[i] == rest.0[i - 1];
      assert rest.1 ==> exists i :: 1 <= i < |ls| && out[i] != ls[i];
      Success((out, first != ls[0] || rest.1))
  }

  /** Replacing a prefix changes the sequence exactly when some element of the
      prefix changes. */
  lemma SpliceDiffers(a: seq<string>, b: seq<string>, rest: seq<string>)
    requires |a| == |b|
    ensures a + rest != b + rest <==> exists i :: 0 <= i < |a| && a[i] != b[i]
  {
    if exists i :: 0 <= i < |a| && a[i] != b[i] {
      var i :| 0 <= i < |a| && a[i] != b[i];
      assert (a + rest)[i] == a[i] && (b + rest)[i] == b[i];
    } else {
      assert a == b;
    }
  }

  /** What `process_file_update_existing` reports when it gets past reading. */
  datatype Status = Empty | NoHeader | Ok | Unchanged

  datatype Outcome = Outcome(lines: seq<string>, changed: bool, status: Status)

  /** The window rewritten with `step`, the lines after it kept. */
  function PassWindow(lines: seq<string>, step: string --> Result<string, RewriteError>)
    : (r: Result<(seq<string>, bool), RewriteError>)
    requires forall i :: 0 <= i < |lines| && i < HeaderScanLines ==> step.requires(lines[i])
    ensures r.Failure? <==> exists i :: 0 <= i < |lines| && i < HeaderScanLines && step(lines[i]).Failure?
    ensures r.Success? ==> |r.value.0| == |lines|
    ensures r.Success? ==> forall i :: 0 <= i < |lines| && i < HeaderScanLines ==> step(lines[i]) == Success(r.value.0[i])
    ensures r.Success? ==> forall i :: HeaderScanLines <= i < |lines| ==> r.value.0[i] == lines[i]
    ensures r.Success? ==> (r.value.1 <==> r.value.0 != lines)
  {
    var limit := Min(HeaderScanLines, |lines|);
    var head := lines[..limit];
    assert forall i :: 0 <= i < limit ==> head[i] == lines[i];
    var res :- RewriteLines(head, step);
    var out := res.0 + lines[limit..];
    assert lines == head + lines[limit..];
    SpliceDiffers(res.0, head, lines[limit..]);
    assert forall i :: limit <= i < |lines| ==> out[i] == lines[i];
    assert forall i :: 0 <= i < limit ==> out[i] == res.0[i];
    Success((out, res.1))
  }

  /** The loop of `process_file_update_existing` with the per-line step `step`,
      from the lines `readlines` gave; the lines of the outcome are what
      `writelines` would write. */
  function UpdateWith(lines: seq<string>, step: string --> Result<string, RewriteError>)
    : (r: Result<Outcome, RewriteError>)
    requires forall i :: 0 <= i < |lines| ==> step.requires(lines[i])
    ensures |lines| == 0 ==> r == Success(Outcome(lines, false, Empty))
    ensures |lines| > 0 && !LooksLike42Header(lines) ==> r == Success(Outcome(lines, false, NoHeader))
    ensures r.Failure? <==>
      && |lines| > 0 && LooksLike42Header(lines)
      && exists i :: 0 <= i < |lines| && i < HeaderScanLines && step(lines[i]).Failure?
    ensures r.Success? ==> |r.value.lines| == |lines|
    ensures r.Success? && r.value.status in {Ok, Unchanged} ==>
      forall i :: 0 <= i < |lines| && i < HeaderScanLines ==> step(lines[i]) == Success(r.value.lines[i])
    ensures r.Success? ==> forall i :: HeaderScanLines <= i < |lines| ==> r.value.lines[i] == lines[i]
    ensures r.Success? ==> (r.value.changed <==> r.value.lines != lines)
    ensures r.Success? ==> (r.value.status == Ok <==> r.value.changed)
    ensures r.Success? && |lines| > 0 && LooksLike42Header(lines) ==> r.value.status in {Ok, Unchanged}
  {
    if |lines| == 0 then Success(Outcome(lines, false, Empty))
    else
      DetectionReadsWindowOnly(Window(lines), lines);
      if !LooksLike42Header(Window(lines)) then Success(Outcome(lines, false, NoHeader))
      else
        var res :- PassWindow(lines, step);
        Success(Outcome(res.0, res.1, if res.1 then Ok else Unchanged))
  }

  /** The per-line step of the tool: `RewriteLine` with the run's name, e-mail,
      dates and width setting. */
  function LineStep(name: string, email: Option<string>, created: DateTime, updated: DateTime, preserveWidth: bool)
    : (step: string --> Result<string, RewriteError>)
    requires created.Valid() && updated.Valid()
    ensures forall line :: LineShaped(line) ==> step.requires(line)
  {
    (line: string) requires LineShaped(line) => RewriteLine(line, name, email, created, updated, preserveWidth)
  }

  /** `process_file_update_existing` on the lines `readlines` gave. */
  function UpdateExisting(lines: seq<string>, name: string, email: Option<string>,
                          created: DateTime, updated: DateTime, preserveWidth: bool)
    : Result<Outcome, RewriteError>
    requires AllLineShaped(lines) && created.Valid() && updated.Valid()
  {
    UpdateWith(lines, LineStep(name, email, created, updated, preserveWidth))
  }

  /** Applying the tool's step is applying `RewriteLine`. */
  lemma LineStepApplies(name: string, email: Option<string>, created: DateTime, updated: DateTime,
                        preserveWidth: bool, line: string)
    requires created.Valid() && updated.Valid() && LineShaped(line)
    ensures LineStep(name, email, created, updated, preserveWidth)(line)
         == RewriteLine(line, name, email, created, updated, preserveWidth)
  {
  }

  /** The pass fails exactly when a header is detected and a line of the window
      holds a word-boundary `By:`. */
  lemma UpdateExistingFails(lines: seq<string>, name: string, email: Option<string>,
                            created: DateTime, updated: DateTime, preserveWidth: bool)
    requires AllLineShaped(lines) && created.Valid() && updated.Valid()
    ensures UpdateExisting(lines, name, email, created, updated, preserveWidth).Failure? <==>
      && |lines| > 0 && LooksLike42Header(lines)
      && exists i, p :: 0 <= i < |lines| && i < HeaderScanLines && ByMatchAt(lines[i], p)
  {
    var step := LineStep(name, email, created, updated, preserveWidth);
    forall i | 0 <= i < |lines|
      ensures step(lines[i]).Failure? <==> exists p :: ByMatchAt(lines[i], p)
    {
      LineStepApplies(name, email, created, updated, preserveWidth, lines[i]);
    }
  }

  /** Every line the pass writes is still a single line. */
  lemma UpdateExistingLineShaped(lines: seq<string>, name: string, email: Option<string>,
                                 created: DateTime, updated: DateTime, preserveWidth: bool)
    requires AllLineShaped(lines) && created.Valid() && updated.Valid()
    ensures var r := UpdateExisting(lines, name, email, created, updated, preserveWidth);
      r.Success? ==> AllLineShaped(r.value.lines)
  {
    var r := UpdateExisting(lines, name, email, created, updated, preserveWidth);
    if r.Success? && |lines| > 0 && LooksLike42Header(lines) {
      forall i | 0 <= i < |lines| && i < HeaderScanLines
        ensures LineShaped(r.value.lines[i])
      {
        LineStepApplies(name, email, created, updated, preserveWidth, lines[i]);
      }
    }
  }

  /** The pass keeps every line that holds none of the three labels. */
  lemma UpdateKeepsLabelFreeLines(lines: seq<string>, name: string, email: Option<string>,
                                  created: DateTime, updated: DateTime, preserveWidth: bool, i: int)
    requires AllLineShaped(lines) && created.Valid() && updated.Valid()
    requires 0 <= i < |lines|
    requires !Contains(lines[i], ByLabel) && !Contains(lines[i], CreatedLabel) && !Contains(lines[i], UpdatedLabel)
    ensures var r := UpdateExisting(lines, name, email, created, updated, preserveWidth);
      r.Success? ==> r.value.lines[i] == lines[i]
  {
    var r := UpdateExisting(lines, name, email, created, updated, preserveWidth);
    if r.Success? && i < HeaderScanLines && |lines| > 0 && LooksLike42Header(lines) {
      LineStepApplies(name, email, created, updated, preserveWidth, lines[i]);
      RewriteLineNoLabels(lines[i], name, email, created, updated, preserveWidth);
    }
  }
}

=== FILE: stamp.dfy ===
/** The header timestamp: `format_42` (`strftime("%Y/%m/%d %H:%M:%S")`) and the
    value pattern `\d{4}/\d{2}/\d{2}\s+\d{2}:\d{2}:\d{2}` shared by the
    Created and Updated regexes. */
module Stamp {
  import opened Wrappers
  import opened Text

  /** A naive local date and time; microseconds are not carried. */
  datatype DateTime = DateTime(year: int, month: int, day: int, hour: int, minute: int, second: int) {
    /** A calendar-valid stamp whose year prints as exactly four digits. */
    predicate Valid() {
      && 1000 <= year <= 9999
      && 1 <= month <= 12
      && 1 <= day <= DaysInMonth(year, month)
      && 0 <= hour <= 23
      && 0 <= minute <= 59
      && 0 <= second <= 59
    }
  }

  predicate IsLeapYear(y: int) {
    y % 4 == 0 && (y % 100 != 0 || y % 400 == 0)
  }

  function DaysInMonth(y: int, m: int): int {
    if m == 2 then (if IsLeapYear(y) then 29 else 28)
    else if m == 4 || m == 6 || m == 9 || m == 11 then 30
    else 31
  }

  /** The text the regexes accept as a Created/Updated value. */
  predicate IsStamp(v: string) {
    && |v| >= 19
    && AllDigits(v[0..4]) && v[4] == '/' && AllDigits(v[5..7]) && v[7] == '/' && AllDigits(v[8..10])
    && AllWs(v[10..|v| - 8])
    && AllDigits(v[|v| - 8..|v| - 6]) && v[|v| - 6] == ':'
    && AllDigits(v[|v| - 5..|v| - 3]) && v[|v| - 3] == ':'
    && AllDigits(v[|v| - 2..])
  }

  /** Every character of a stamp is a digit, a separator or whitespace. */
  predicate IsStampChar(c: char) {
    IsDigit(c) || c == '/' || c == ':' || IsWs(c)
  }

  lemma StampChars(v: string)
    requires IsStamp(v)
    ensures forall k :: 0 <= k < |v| ==> IsStampChar(v[k])
  {
    forall k | 0 <= k < |v|
      ensures IsStampChar(v[k])
    {
      if k < 4 { assert v[0..4][k] == v[k]; }
      else if 5 <= k < 7 { assert v[5..7][k - 5] == v[k]; }
      else if 8 <= k < 10 { assert v[8..10][k - 8] == v[k]; }
      else if 10 <= k < |v| - 8 { assert v[10..|v| - 8][k - 10] == v[k]; }
      else if |v| - 8 <= k < |v| - 6 { assert v[|v| - 8..|v| - 6][k - (|v| - 8)] == v[k]; }
      else if |v| - 5 <= k < |v| - 3 { assert v[|v| - 5..|v| - 3][k - (|v| - 5)] == v[k]; }
      else if |v| - 2 <= k { assert v[|v| - 2..][k - (|v| - 2)] == v[k]; }
    }
  }

  /** Only one stamp can start a string: the whitespace inside it is greedy. */
  lemma StampPrefixUnique(s: string, j1: nat, j2: nat)
    requires j1 <= |s| && j2 <= |s|
    requires IsStamp(s[..j1]) && IsStamp(s[..j2])
    ensures j1 == j2
  {
    var a := s[..j1];
    var b := s[..j2];
    WsEndUnique(a, 10, j1 - 8);
    WsEndUnique(b, 10, j2 - 8);
    assert a[..j1 - 8] == s[..j1 - 8];
    assert b[..j2 - 8] == s[..j2 - 8];
    WsPrefixAgree(s, a, j1 - 8);
    WsPrefixAgree(s, b, j2 - 8);
  }

  /** The greedy whitespace end from index 10 of a prefix `t` of `s` that stops
      at a non-space inside `t` is the same in `s`. */
  lemma WsPrefixAgree(s: string, t: string, e: nat)
    requires 10 <= e < |t| <= |s|
    requires t == s[..|t|]
    requires WsEnd(t, 10) == e
    ensures WsEnd(s, 10) == e
  {
    assert t[10..e] == s[10..e];
    assert t[e] == s[e];
    WsEndUnique(s, 10, e);
  }

  function DigitChar(n: int): (c: char)
    requires 0 <= n <= 9
    ensures IsDigit(c)
  {
    (('0' as int) + n) as char
  }

  function DigitVal(c: char): (n: int)
    requires IsDigit(c)
    ensures 0 <= n <= 9
  {
    (c as int) - ('0' as int)
  }

  /** Zero-padded two-digit field (`%m`, `%d`, `%H`, `%M`, `%S`). */
  function Pad2(n: int): (r: string)
    requires 0 <= n <= 99
    ensures |r| == 2 && AllDigits(r)
    ensures 10 * DigitVal(r[0]) + DigitVal(r[1]) == n
  {
    [DigitChar(n / 10), DigitChar(n % 10)]
  }

  /** Four-digit year field (`%Y` for years 1000 to 9999). */
  function Pad4(n: int): (r: string)
    requires 0 <= n <= 9999
    ensures |r| == 4 && AllDigits(r)
    ensures 1000 * DigitVal(r[0]) + 100 * DigitVal(r[1]) + 10 * DigitVal(r[2]) + DigitVal(r[3]) == n
  {
    Pad2(n / 100) + Pad2(n % 100)
  }

  /** `format_42`: the 19-character `YYYY/MM/DD HH:MM:SS` text. */
  function Format42(d: DateTime): (r: string)
    requires d.Valid()
    ensures |r| == 19 && IsStamp(r) && r[10] == ' '
  {
    var r := Pad4(d.year) + "/" + Pad2(d.month) + "/" + Pad2(d.day) + " "
      + Pad2(d.hour) + ":" + Pad2(d.minute) + ":" + Pad2(d.second);
    assert r[0..4] == Pad4(d.year);
    assert r[5..7] == Pad2(d.month);
    assert r[8..10] == Pad2(d.day);
    assert r[11..13] == Pad2(d.hour);
    assert r[14..16] == Pad2(d.minute);
    assert r[17..] == Pad2(d.second);
    r
  }

  function Value2(s: string, i: nat): int
    requires i + 2 <= |s| && IsDigit(s[i]) && IsDigit(s[i + 1])
  {
    10 * DigitVal(s[i]) + DigitVal(s[i + 1])
  }

  /** A stamp in the single-space shape `format_42` produces. */
  predicate CanonicalStamp(s: string) {
    |s| == 19 && IsStamp(s) && s[10] == ' '
  }

  /** Reads a canonical stamp back into the date and time it denotes. */
  function ParseStamp(s: string): (r: Option<DateTime>)
    ensures r.Some? ==> r.value.Valid() && CanonicalStamp(s)
  {
    if !CanonicalStamp(s) then None
    else
      assert s[0..4][0] == s[0] && s[0..4][1] == s[1] && s[0..4][2] == s[2] && s[0..4][3] == s[3];
      assert s[5..7][0] == s[5] && s[5..7][1] == s[6] && s[8..10][0] == s[8] && s[8..10][1] == s[9];
      assert s[11..13][0] == s[11] && s[11..13][1] == s[12];
      assert s[14..16][0] == s[14] && s[14..16][1] == s[15];
      assert s[17..][0] == s[17] && s[17..][1] == s[18];
      var d := DateTime(100 * Value2(s, 0) + Value2(s, 2), Value2(s, 5), Value2(s, 8),
                        Value2(s, 11), Value2(s, 14), Value2(s, 17));
      if d.Valid() then Some(d) else None
  }

  /** Reading a formatted stamp gives back the original date and time. */
  lemma ParseFormat(d: DateTime)
    requires d.Valid()
    ensures ParseStamp(Format42(d)) == Some(d)
  {
    var s := Format42(d);
    assert s[0..4] == Pad4(d.year);
    assert s[5..7] == Pad2(d.month);
    assert s[8..10] == Pad2(d.day);
    assert s[11..13] == Pad2(d.hour);
    assert s[14..16] == Pad2(d.minute);
    assert s[17..] == Pad2(d.second);
  }

  lemma Pad2OfValue(s: string, i: nat)
    requires i + 2 <= |s| && IsDigit(s[i]) && IsDigit(s[i + 1])
    ensures Pad2(Value2(s, i)) == s[i..i + 2]
  {
    var v := Value2(s, i);
    assert v / 10 == DigitVal(s[i]);
    assert v % 10 == DigitVal(s[i + 1]);
  }

  /** Where each field sits in the text `format_42` produces. */
  lemma Format42Layout(d: DateTime)
    requires d.Valid()
    ensures var f := Format42(d);
      && f[0..2] == Pad2(d.year / 100) && f[2..4] == Pad2(d.year % 100)
      && f[5..7] == Pad2(d.month) && f[8..10] == Pad2(d.day)
      && f[11..13] == Pad2(d.hour) && f[14..16] == Pad2(d.minute) && f[17..19] == Pad2(d.second)
      && f[4] == '/' && f[7] == '/' && f[13] == ':' && f[16] == ':'
  {
  }

  /** Two 19-character texts that agree on every two-digit field and every
      separator are equal. */
  lemma SameStampLayout(f: string, s: string)
    requires |f| == 19 && |s| == 19
    requires f[0..2] == s[0..2] && f[2..4] == s[2..4] && f[5..7] == s[5..7] && f[8..10] == s[8..10]
    requires f[11..13] == s[11..13] && f[14..16] == s[14..16] && f[17..19] == s[17..19]
    requires f[4] == s[4] && f[7] == s[7] && f[10] == s[10] && f[13] == s[13] && f[16] == s[16]
    ensures f == s
  {
    forall k | 0 <= k < 19
      ensures f[k] == s[k]
    {
      var i := if k < 2 then 0 else if k < 4 then 2 else if k < 7 then 5 else if k < 10 then 8
        else if k < 13 then 11 else if k < 16 then 14 else 17;
      if k != 4 && k != 7 && k != 10 && k != 13 && k != 16 {
        assert f[i..i + 2][k - i] == s[i..i + 2][k - i];
      }
    }
  }

  /** Formatting what was read from a canonical stamp gives back the same text. */
  lemma FormatParse(s: string)
    requires ParseStamp(s).Some?
    ensures Format42(ParseStamp(s).value) == s
  {
    var d := ParseStamp(s).value;
    assert s[0..4][0] == s[0] && s[0..4][1] == s[1] && s[0..4][2] == s[2] && s[0..4][3] == s[3];
    assert s[5..7][0] == s[5] && s[5..7][1] == s[6] && s[8..10][0] == s[8] && s[8..10][1] == s[9];
    assert s[11..13][0] == s[11] && s[11..13][1] == s[12];
    assert s[14..16][0] == s[14] && s[14..16][1] == s[15];
    assert s[17..][0] == s[17] && s[17..][1] == s[18];
    Pad2OfValue(s, 0);
    Pad2OfValue(s, 2);
    Pad2OfValue(s, 5);
    Pad2OfValue(s, 8);
    Pad2OfValue(s, 11);
    Pad2OfValue(s, 14);
    Pad2OfValue(s, 17);
    assert d.year / 100 == Value2(s, 0);
    assert d.year % 100 == Value2(s, 2);
    Format42Layout(d);
    SameStampLayout(Format42(d), s);
  }

  /** A formatted stamp is one line: digits, separators and one space. */
  lemma Format42NoNewline(d: DateTime)
    requires d.Valid()
    ensures NoNewline(Format42(d))
  {
    var f := Format42(d);
    Format42Layout(d);
    forall k | 0 <= k < 19
      ensures f[k] != '\n'
    {
      var i := if k < 2 then 0 else if k < 4 then 2 else if k < 7 then 5 else if k < 10 then 8
        else if k < 13 then 11 else if k < 16 then 14 else 17;
      if k != 4 && k != 7 && k != 10 && k != 13 && k != 16 {
        assert f[i..i + 2][k - i] == f[k];
      }
    }
  }
}

=== FILE: text.dfy ===
/** String helpers the tool takes from Python's `str`: substring tests,
    `rfind`, `"\n".join`, `"".join`, `ljust`-style padding and the character
    classes of the `re` module (restricted to ASCII). */
module Text {

  /** `sub` occurs in `s` starting at index `i`. */
  predicate OccursAt(s: string, sub: string, i: int) {
    0 <= i && i + |sub| <= |s| && s[i..i + |sub|] == sub
  }

  /** Python's `sub in s`. */
  predicate Contains(s: string, sub: string) {
    exists i | 0 <= i <= |s| - |sub| :: OccursAt(s, sub, i)
  }

  /** Python's `s.startswith(p)`. */
  predicate StartsWith(s: string, p: string) {
    OccursAt(s, p, 0)
  }

  /** Python's `s.endswith(p)`. */
  predicate EndsWith(s: string, p: string) {
    |p| <= |s| && s[|s| - |p|..] == p
  }

  /** The last occurrence of `sub` at or below index `k`, or -1. */
  function LastIndexUpTo(s: string, sub: string, k: int): (r: int)
    requires k <= |s| - |sub|
    ensures r == -1 || 0 <= r <= k
    ensures r >= 0 ==> OccursAt(s, sub, r)
    ensures forall j :: r < j <= k ==> !OccursAt(s, sub, j)
    decreases k + 1
  {
    if k < 0 then -1
    else if OccursAt(s, sub, k) then k
    else LastIndexUpTo(s, sub, k - 1)
  }

  /** Python's `s.rfind(sub)`: the highest index where `sub` occurs, or -1. */
  function RFind(s: string, sub: string): (r: int)
    ensures r == -1 <==> !Contains(s, sub)
    ensures r >= 0 ==> OccursAt(s, sub, r)
    ensures forall j :: r < j ==> !OccursAt(s, sub, j)
  {
    LastIndexUpTo(s, sub, |s| - |sub|)
  }

  /** `c * n` for a one-character string `c`; Python gives "" when n <= 0. */
  function Repeat(c: char, n: int): (r: string)
    ensures |r| == if n <= 0 then 0 else n
    ensures forall k :: 0 <= k < |r| ==> r[k] == c
    decreases n
  {
    if n <= 0 then "" else [c] + Repeat(c, n - 1)
  }

  /** Python's `sep.join(ls)`. */
  function Join(ls: seq<string>, sep: string): string
    decreases |ls|
  {
    if |ls| == 0 then ""
    else if |ls| == 1 then ls[0]
    else ls[0] + sep + Join(ls[1..], sep)
  }

  /** Python's `min` and `max` on two integers. */
  function Min(a: int, b: int): int {
    if a <= b then a else b
  }

  function Max(a: int, b: int): int {
    if a >= b then a else b
  }

  /** Python's `"".join(ls)`. */
  function Concat(ls: seq<string>): string
    decreases |ls|
  {
    if |ls| == 0 then "" else ls[0] + Concat(ls[1..])
  }

  /** Concatenation distributes over splitting the list. */
  lemma {:induction false} ConcatAppend(a: seq<string>, b: seq<string>)
    ensures Concat(a + b) == Concat(a) + Concat(b)
    decreases |a|
  {
    if |a| == 0 {
      assert a + b == b;
    } else {
      assert (a + b)[1..] == a[1..] + b;
      ConcatAppend(a[1..], b);
    }
  }

  /** A slice of a slice is a slice of the original. */
  lemma SliceOfSlice(s: string, i: nat, j: nat, a: nat, b: nat)
    requires i <= j <= |s| && a <= b <= j - i
    ensures s[i..j][a..b] == s[i + a..i + b]
  {
    assert forall k :: 0 <= k < b - a ==> s[i..j][a..b][k] == s[i + a + k];
  }

  /** Python's `\s` (a `str` pattern) on ASCII characters: space, `\t`, `\n`,
      `\v`, `\f`, `\r`, and the four separators `\x1c` to `\x1f`. */
  predicate IsWs(c: char) {
    || c == ' ' || c == '\t' || c == '\n' || c == '\r' || c == '\U{000B}' || c == '\U{000C}'
    || '\U{001C}' <= c <= '\U{001F}'
  }

  /** Python's `\d` on ASCII text. */
  predicate IsDigit(c: char) {
    '0' <= c <= '9'
  }

  /** Python's `\w` on ASCII text. */
  predicate IsWordChar(c: char) {
    IsDigit(c) || ('a' <= c <= 'z') || ('A' <= c <= 'Z') || c == '_'
  }

  predicate AllWs(s: string) {
    forall k :: 0 <= k < |s| ==> IsWs(s[k])
  }

  predicate AllDigits(s: string) {
    forall k :: 0 <= k < |s| ==> IsDigit(s[k])
  }

  /** The text holds no newline at all. */
  predicate NoNewline(s: string) {
    '\n' !in s
  }

  /** A line as `readlines` yields it: a newline, if any, only as the last character. */
  predicate LineShaped(s: string) {
    forall k :: 0 <= k < |s| - 1 ==> s[k] != '\n'
  }

  /** Greedy `\s*` from `i`: the first index at or after `i` that is not whitespace. */
  function WsEnd(s: string, i: nat): (j: nat)
    requires i <= |s|
    ensures i <= j <= |s|
    ensures AllWs(s[i..j])
    ensures j == |s| || !IsWs(s[j])
    decreases |s| - i
  {
    if i == |s| || !IsWs(s[i]) then i else WsEnd(s, i + 1)
  }

  /** Any whitespace run from `i` ends no earlier than the greedy one. */
  lemma {:induction false} WsEndCovers(s: string, i: nat, j: nat)
    requires i <= j <= |s|
    requires AllWs(s[i..j])
    ensures j <= WsEnd(s, i)
    decreases j - i
  {
    if i < j {
      assert s[i..j][0] == s[i];
      assert s[i + 1..j] == s[i..j][1..];
      WsEndCovers(s, i + 1, j);
    }
  }

  /** A whitespace run that stops at a non-space is the greedy one. */
  lemma WsEndUnique(s: string, i: nat, j: nat)
    requires i <= j <= |s|
    requires AllWs(s[i..j])
    requires j == |s| || !IsWs(s[j])
    ensures WsEnd(s, i) == j
    decreases j - i
  {
    if i < j {
      assert s[i..j][0] == s[i];
      assert s[i + 1..j] == s[i..j][1..];
      WsEndUnique(s, i + 1, j);
    }
  }

  /** An occurrence inside a slice is an occurrence in the whole string, shifted. */
  lemma OccursInSlice(s: string, lo: nat, hi: nat, sub: string, j: int)
    requires lo <= hi <= |s|
    ensures OccursAt(s[lo..hi], sub, j) <==> 0 <= j && lo + j + |sub| <= hi && OccursAt(s, sub, lo + j)
  {
    if 0 <= j && j + |sub| <= hi - lo {
      SliceOfSlice(s, lo, hi, j, j + |sub|);
    }
  }

  /** A substring free of `sep` that occurs in `a + sep + b` occurs in `a` or in `b`,
      and conversely. */
  lemma ContainsAroundSeparator(a: string, b: string, sep: char, sub: string)
    requires |sub| > 0
    requires sep !in sub
    ensures Contains(a + [sep] + b, sub) <==> Contains(a, sub) || Contains(b, sub)
  {
    var s := a + [sep] + b;
    assert s[0..|a|] == a;
    assert s[|a| + 1..|s|] == b;
    if Contains(s, sub) {
      var i :| 0 <= i <= |s| - |sub| && OccursAt(s, sub, i);
      SeparatorOutside(s, |a|, sub, i);
      if i + |sub| <= |a| {
        OccursInSlice(s, 0, |a|, sub, i);
      } else {
        OccursInSlice(s, |a| + 1, |s|, sub, i - |a| - 1);
      }
    }
    if Contains(a, sub) {
      var i :| 0 <= i <= |a| - |sub| && OccursAt(a, sub, i);
      OccursInSlice(s, 0, |a|, sub, i);
    }
    if Contains(b, sub) {
      var j :| 0 <= j <= |b| - |sub| && OccursAt(b, sub, j);
      OccursInSlice(s, |a| + 1, |s|, sub, j);
    }
  }

  /** An occurrence of a substring never covers a character the substring lacks. */
  lemma SeparatorOutside(s: string, k: nat, sub: string, i: int)
    requires k < |s| && s[k] !in sub
    requires OccursAt(s, sub, i)
    ensures i + |sub| <= k || k < i
  {
    assert forall x :: i <= x < i + |sub| ==> s[x] == sub[x - i];
  }

  /** A non-empty substring without newlines occurs in `"\n".join(ls)` exactly
      when it occurs in one of the lines. */
  lemma {:induction false} ContainsInJoin(ls: seq<string>, sub: string)
    requires |sub| > 0
    requires '\n' !in sub
    ensures Contains(Join(ls, "\n"), sub) <==> exists i :: 0 <= i < |ls| && Contains(ls[i], sub)
    decreases |ls|
  {
    if |ls| == 0 {
    } else if |ls| == 1 {
    } else {
      var rest := Join(ls[1..], "\n");
      assert Join(ls, "\n") == ls[0] + ['\n'] + rest;
      ContainsAroundSeparator(ls[0], rest, '\n', sub);
      ContainsInJoin(ls[1..], sub);
      if exists i :: 0 <= i < |ls| && Contains(ls[i], sub) {
        var i :| 0 <= i < |ls| && Contains(ls[i], sub);
        if i > 0 {
          assert ls[1..][i - 1] == ls[i];
        }
      }
      if exists i :: 0 <= i < |ls[1..]| && Contains(ls[1..][i], sub) {
        var i :| 0 <= i < |ls[1..]| && Contains(ls[1..][i], sub);
        assert ls[i + 1] == ls[1..][i];
      }
    }
  }
}

=== FILE: timeline.dfy ===
/** `plan_timeline`: created/updated stamps for a run of files, in whole seconds
    since the start of the current day (0 is 00:00:00, `EndOfDay` is 23:59:59).
    The random gaps and work durations are inputs, each within its bounds. */
module Timeline {
  import opened Text

  /** `end_of_day - start_of_day` in seconds. */
  const EndOfDay: int := 86399

  /** The sum of the first `i` values of `s`; `PrefixSum(s, |s|)` is Python's `sum(s)`. */
  function PrefixSum(s: seq<int>, i: nat): int
    requires i <= |s|
  {
    if i == 0 then 0 else PrefixSum(s, i - 1) + s[i - 1]
  }

  /** Every value was drawn by `randint(lo, hi)`. */
  predicate Drawn(s: seq<int>, lo: int, hi: int) {
    forall i :: 0 <= i < |s| ==> lo <= s[i] <= hi
  }

  lemma {:induction false} PrefixSumBounds(s: seq<int>, lo: int, hi: int, i: nat)
    requires i <= |s| && Drawn(s, lo, hi)
    ensures i * lo <= PrefixSum(s, i) <= i * hi
  {
    if i > 0 {
      PrefixSumBounds(s, lo, hi, i - 1);
      assert (i - 1) * lo + lo == i * lo && (i - 1) * hi + hi == i * hi;
    }
  }

  predicate NonNegative(s: seq<int>) {
    forall i :: 0 <= i < |s| ==> s[i] >= 0
  }

  lemma {:induction false} PrefixSumMono(s: seq<int>, i: nat, j: nat)
    requires i <= j <= |s| && NonNegative(s)
    ensures PrefixSum(s, i) <= PrefixSum(s, j)
    decreases j
  {
    if i < j {
      PrefixSumMono(s, i, j - 1);
    }
  }

  /** `total_span`: the summed gaps plus the last file's work time. */
  function Span(gaps: seq<int>, works: seq<int>): int
    requires |works| > 0
  {
    PrefixSum(gaps, |gaps|) + works[|works| - 1]
  }

  /** The first `created`: `min(now, latest_base)`, or one second past midnight when
      that falls before the day starts. */
  function Base(now: int, span: int): (b: int)
    requires 0 <= now <= EndOfDay
    ensures b >= 0
    ensures span <= EndOfDay ==> b == Min(now, EndOfDay - span) && b <= now
    ensures span > EndOfDay ==> b == 1
  {
    var b := Min(now, EndOfDay - span);
    if b < 0 then 1 else b
  }

  /** The loop of `plan_timeline` from file `i` at time `t`: `created` advances by
      the gaps, `updated` is `created` plus the work time, capped at the end of the day. */
  function Walk(t: int, gaps: seq<int>, works: seq<int>, i: nat): (r: seq<(int, int)>)
    requires i < |works| && |gaps| == |works| - 1
    ensures |r| == |works| - i
    ensures forall k :: 0 <= k < |r| ==> r[k].0 == t + PrefixSum(gaps, i + k) - PrefixSum(gaps, i)
    ensures forall k :: 0 <= k < |r| ==> r[k].1 == Min(r[k].0 + works[i + k], EndOfDay)
    decreases |works| - i
  {
    var first := (t, Min(t + works[i], EndOfDay));
    if i == |works| - 1 then [first]
    else
      var rest := Walk(t + gaps[i], gaps, works, i + 1);
      assert forall k :: 1 <= k < |rest| + 1 ==> ([first] + rest)[k] == rest[k - 1];
      [first] + rest
  }

  /** `plan_timeline(n_files, now, gap_min_s, gap_max_s, work_min_s, work_max_s)`
      with the drawn `gaps` and `works`: file `i` is created `PrefixSum(gaps, i)`
      seconds after the base, and the clamp keeps `created` from going below
      midnight and `updated` from going past the end of the day. */
  function PlanTimeline(n: nat, now: int, gapMin: int, gapMax: int, workMin: int, workMax: int,
                        gaps: seq<int>, works: seq<int>): (r: seq<(int, int)>)
    requires 0 <= now <= EndOfDay
    requires |works| == n && |gaps| == Max(n - 1, 0)
    requires Drawn(gaps, gapMin, gapMax) && Drawn(works, workMin, workMax)
    ensures |r| == n
    ensures n > 0 ==> forall i :: 0 <= i < n ==>
      r[i] == (Max(0, Base(now, Span(gaps, works)) + PrefixSum(gaps, i)),
               Min(Base(now, Span(gaps, works)) + PrefixSum(gaps, i) + works[i], EndOfDay))
  {
    if n == 0 then []
    else
      var times := Walk(Base(now, Span(gaps, works)), gaps, works, 0);
      seq(n, i requires 0 <= i < n => (Max(0, times[i].0), Min(EndOfDay, times[i].1)))
  }

  /** The shape of the plan: the first file starts at the base, each next one a
      gap later, and the final clamp never moves a `created` while the gaps are
      non-negative. */
  lemma TimelineShape(n: nat, now: int, gapMin: int, gapMax: int, workMin: int, workMax: int,
                      gaps: seq<int>, works: seq<int>)
    requires 0 <= now <= EndOfDay
    requires |works| == n && |gaps| == Max(n - 1, 0)
    requires Drawn(gaps, gapMin, gapMax) && Drawn(works, workMin, workMax)
    requires gapMin >= 0
    ensures var r := PlanTimeline(n, now, gapMin, gapMax, workMin, workMax, gaps, works);
      && (n == 0 <==> r == [])
      && (n > 0 ==> r[0].0 == Base(now, Span(gaps, works)))
      && (forall i :: 0 <= i < n ==> r[i].0 == Base(now, Span(gaps, works)) + PrefixSum(gaps, i))
      && (forall i :: 0 <= i < n - 1 ==> r[i + 1].0 - r[i].0 == gaps[i])
      && (forall i :: 0 <= i < n ==> r[i].1 == Min(r[i].0 + works[i], EndOfDay))
  {
    if n > 0 {
      var r := PlanTimeline(n, now, gapMin, gapMax, workMin, workMax, gaps, works);
      var b := Base(now, Span(gaps, works));
      assert NonNegative(gaps);
      forall i | 0 <= i < n
        ensures r[i].0 == b + PrefixSum(gaps, i)
      {
        PrefixSumMono(gaps, 0, i);
      }
      forall i | 0 <= i < n - 1
        ensures r[i + 1].0 - r[i].0 == gaps[i]
      {
        assert PrefixSum(gaps, i + 1) == PrefixSum(gaps, i) + gaps[i];
      }
    }
  }

  /** One file of a run that fits in the day: its stamps are ordered inside the
      day and `updated` is exactly `created` plus the work time. */
  lemma FitsAt(n: nat, now: int, gapMin: int, gapMax: int, workMin: int, workMax: int,
               gaps: seq<int>, works: seq<int>, i: int)
    requires 0 <= now <= EndOfDay
    requires |works| == n && |gaps| == Max(n - 1, 0)
    requires Drawn(gaps, gapMin, gapMax) && Drawn(works, workMin, workMax)
    requires gapMin >= 0 && workMin >= 0
    requires n > 0 && Span(gaps, works) <= EndOfDay
    requires 0 <= i < n
    ensures var r := PlanTimeline(n, now, gapMin, gapMax, workMin, workMax, gaps, works);
      && 0 <= r[i].0 <= r[i].1 <= EndOfDay
      && r[i].1 - r[i].0 == Min(works[i], EndOfDay - r[i].0)
      && EndOfDay - r[i].0 >= works[n - 1]
  {
    assert NonNegative(gaps);
    PrefixSumMono(gaps, 0, i);
    PrefixSumMono(gaps, i, |gaps|);
  }

  /** When the whole run fits in the day, the first file starts at
      `min(now, latest_base)` and every stamp stays inside the day with
      `created <= updated`. */
  lemma TimelineFits(n: nat, now: int, gapMin: int, gapMax: int, workMin: int, workMax: int,
                     gaps: seq<int>, works: seq<int>)
    requires 0 <= now <= EndOfDay
    requires |works| == n && |gaps| == Max(n - 1, 0)
    requires Drawn(gaps, gapMin, gapMax) && Drawn(works, workMin, workMax)
    requires gapMin >= 0 && workMin >= 0
    requires n > 0 && Span(gaps, works) <= EndOfDay
    ensures var r := PlanTimeline(n, now, gapMin, gapMax, workMin, workMax, gaps, works);
      && r[0].0 == Min(now, EndOfDay - Span(gaps, works)) <= now
      && forall i :: 0 <= i < n ==> 0 <= r[i].0 <= r[i].1 <= EndOfDay
  {
    forall i | 0 <= i < n
      ensures var r := PlanTimeline(n, now, gapMin, gapMax, workMin, workMax, gaps, works);
        0 <= r[i].0 <= r[i].1 <= EndOfDay
    {
      FitsAt(n, now, gapMin, gapMax, workMin, workMax, gaps, works, i);
    }
  }

  /** The docstring's promise on durations holds while the run fits:
      `updated - created` stays within `[work_min_s, work_max_s]`. */
  lemma TimelineDurations(n: nat, now: int, gapMin: int, gapMax: int, workMin: int, workMax: int,
                          gaps: seq<int>, works: seq<int>)
    requires 0 <= now <= EndOfDay
    requires |works| == n && |gaps| == Max(n - 1, 0)
    requires Drawn(gaps, gapMin, gapMax) && Drawn(works, workMin, workMax)
    requires gapMin >= 0 && workMin >= 0
    requires n > 0 && Span(gaps, works) <= EndOfDay
    ensures var r := PlanTimeline(n, now, gapMin, gapMax, workMin, workMax, gaps, works);
      forall i :: 0 <= i < n ==> workMin <= r[i].1 - r[i].0 <= workMax
  {
    forall i | 0 <= i < n
      ensures var r := PlanTimeline(n, now, gapMin, gapMax, workMin, workMax, gaps, works);
        workMin <= r[i].1 - r[i].0 <= workMax
    {
      FitsAt(n, now, gapMin, gapMax, workMin, workMax, gaps, works, i);
    }
  }

  /** When the whole run outlasts the day and the drawn gaps alone reach its end,
      the run starts at 00:00:01 and the last `created` lies past the end of the
      day and after its own `updated`: the final clamp bounds `created` only from
      below. */
  lemma TimelineOverflow(n: nat, now: int, gapMin: int, gapMax: int, workMin: int, workMax: int,
                         gaps: seq<int>, works: seq<int>)
    requires 0 <= now <= EndOfDay
    requires |works| == n && |gaps| == Max(n - 1, 0)
    requires Drawn(gaps, gapMin, gapMax) && Drawn(works, workMin, workMax)
    requires n >= 2 && Span(gaps, works) > EndOfDay && PrefixSum(gaps, n - 1) >= EndOfDay
    ensures var r := PlanTimeline(n, now, gapMin, gapMax, workMin, workMax, gaps, works);
      && r[0].0 == 1
      && r[n - 1].0 > EndOfDay
      && r[n - 1].1 <= EndOfDay < r[n - 1].0
      && (works[n - 1] >= -1 ==> r[n - 1].1 == EndOfDay)
  {
    assert Base(now, Span(gaps, works)) == 1;
  }

  /** A concrete run that leaves the day: two files, a full day's gap. */
  lemma TimelineOverflowExample()
    ensures PlanTimeline(2, 0, 0, 86399, 0, 1, [86399], [0, 1]) == [(1, 1), (86400, 86399)]
  {
    assert PrefixSum([86399], 1) == 86399;
  }

  /** The planner with both ends of every pair clamped into the day, as the
      docstring ("All stamps are today") and the "Clamp to today" step intend. */
  function PlanTimelineWithinDay(n: nat, now: int, gapMin: int, gapMax: int, workMin: int, workMax: int,
                                 gaps: seq<int>, works: seq<int>): (r: seq<(int, int)>)
    requires 0 <= now <= EndOfDay
    requires |works| == n && |gaps| == Max(n - 1, 0)
    requires Drawn(gaps, gapMin, gapMax) && Drawn(works, workMin, workMax)
    ensures |r| == n
    ensures forall i :: 0 <= i < n ==> 0 <= r[i].0 <= EndOfDay && 0 <= r[i].1 <= EndOfDay
    ensures NonNegative(works) ==> forall i :: 0 <= i < n ==> r[i].0 <= r[i].1
  {
    var p := PlanTimeline(n, now, gapMin, gapMax, workMin, workMax, gaps, works);
    seq(n, i requires 0 <= i < n => (Min(EndOfDay, p[i].0), Max(0, p[i].1)))
  }

  /** The corrected planner agrees with `plan_timeline` whenever the run fits. */
  lemma WithinDayAgrees(n: nat, now: int, gapMin: int, gapMax: int, workMin: int, workMax: int,
                        gaps: seq<int>, works: seq<int>)
    requires 0 <= now <= EndOfDay
    requires |works| == n && |gaps| == Max(n - 1, 0)
    requires Drawn(gaps, gapMin, gapMax) && Drawn(works, workMin, workMax)
    requires gapMin >= 0 && workMin >= 0
    requires n > 0 && Span(gaps, works) <= EndOfDay
    ensures PlanTimelineWithinDay(n, now, gapMin, gapMax, workMin, workMax, gaps, works)
      == PlanTimeline(n, now, gapMin, gapMax, workMin, workMax, gaps, works)
  {
    TimelineFits(n, now, gapMin, gapMax, workMin, workMax, gaps, works);
  }
}

=== FILE: width.dfy ===
/** `adjust_width_preserving_tail`: keep a rewritten header line as wide as the
    line it replaces by flexing the run of spaces just before the comment
    ender, the last star-slash pair (or before the end of the line when there is
    no ender). */
module Width {
  import opened Text

  /** Where the flexible run must end: the last comment ender of the line, else its end. */
  function FlexEnd(line: string): (e: nat)
    ensures e <= |line|
    ensures e < |line| ==> OccursAt(line, "*/", e) && forall j :: e < j ==> !OccursAt(line, "*/", j)
    ensures e == |line| ==> !Contains(line, "*/")
  {
    var p := RFind(line, "*/");
    if p == -1 then |line| else p
  }

  /** Start of the maximal run of spaces that ends right before index `end`
      (equal to `end` when there is none): the backwards scan of the source. */
  function SpaceRunStart(s: string, end: nat): (k: nat)
    requires end <= |s|
    ensures k <= end
    ensures forall j :: k <= j < end ==> s[j] == ' '
    ensures k == 0 || s[k - 1] != ' '
    decreases end
  {
    if end == 0 || s[end - 1] != ' ' then end else SpaceRunStart(s, end - 1)
  }

  predicate AllSpaces(s: string) {
    forall k :: 0 <= k < |s| ==> s[k] == ' '
  }

  /** The width adjustment succeeds: the run exists and, when the line grew,
      it is strictly longer than the growth. */
  predicate CanFlex(oldLine: string, newLine: string) {
    var e := FlexEnd(newLine);
    var runLen := e - SpaceRunStart(newLine, e);
    |newLine| != |oldLine| && runLen > 0 && runLen > |newLine| - |oldLine|
  }

  /** `adjust_width_preserving_tail(old_line, new_line)`. */
  function AdjustWidth(oldLine: string, newLine: string): (r: string)
    ensures |newLine| == |oldLine| ==> r == newLine
    ensures !CanFlex(oldLine, newLine) ==> r == newLine
    ensures CanFlex(oldLine, newLine) ==>
      var e := FlexEnd(newLine);
      var k := SpaceRunStart(newLine, e);
      var t := |newLine| - e;
      && |r| == |oldLine|
      && r[..k] == newLine[..k]
      && r[|r| - t..] == newLine[e..]
      && AllSpaces(r[k..|r| - t])
      && k < |r| - t
    ensures LineShaped(newLine) ==> LineShaped(r)
  {
    if |newLine| == |oldLine| then newLine
    else
      var e := FlexEnd(newLine);
      var diff := |newLine| - |oldLine|;
      var k := SpaceRunStart(newLine, e);
      if k == e then newLine
      else
        var runLen := e - k;
        if diff > 0 && runLen <= diff then newLine
        else
          var r := newLine[..k] + Repeat(' ', runLen - diff) + newLine[e..];
          assert r[..k] == newLine[..k];
          assert r[k..|r| - (|newLine| - e)] == Repeat(' ', runLen - diff);
          assert r[|r| - (|newLine| - e)..] == newLine[e..];
          assert LineShaped(newLine) ==> LineShaped(r) by {
            if LineShaped(newLine) {
              forall j | 0 <= j < |r| - 1
                ensures r[j] != '\n'
              {
                if j < k {
                  assert r[j] == newLine[j];
                } else if j < |r| - (|newLine| - e) {
                  assert r[j] == ' ';
                } else {
                  assert r[j] == newLine[j - |r| + |newLine|];
                }
              }
            }
          }
          r
  }

  /** Adjusting is a no-op on its own output: a second pass with the same
      original line changes nothing. */
  lemma AdjustWidthIdempotent(oldLine: string, newLine: string)
    ensures AdjustWidth(oldLine, AdjustWidth(oldLine, newLine)) == AdjustWidth(oldLine, newLine)
  {
  }
}

=== FILE: wrappers.dfy ===
/** Failure-compatible result types used across the model. */
module Wrappers {

  datatype Option<+T> = None | Some(value: T)

  /** Either a value or the error the source would raise. */
  datatype Result<+R, +E> = Success(value: R) | Failure(error: E) {

    predicate IsFailure() {
      Failure?
    }

    function PropagateFailure<U>(): Result<U, E>
      requires Failure?
    {
      Failure(error)
    }

    function Extract(): R
      requires Success?
    {
      value
    }
  }
}
